=== FILE: README.md ===
# pygab core, modelled in Dafny

This project models three self-contained pieces of the pygab chat-bot
framework as pure functions over immutable values, and proves properties of
them:

- **Hook dispatch** (`core/locations.py`). A location holds hooks. Each hook
  owns a map from a context key to a resumable task. The context key is a
  user's bare JID, or `"__global__"` for a hook with `use_global_state`.
  `get_or_init_state` reuses a live task, or builds, stores and primes a
  fresh one. `evaluate` drives every hook once per event and OR-s their
  verdicts. `clean` and `remove` tear state down. `get_hooks_for` lists a
  plugin file's hooks. A task is a finite script of yielded verdicts plus a
  position; running off the end is the generator raising StopIteration
  (module `Tasks`, used by `Locations`).
- **Task pools and timers** (`framework/timers.py`). `ThreadPool` and its
  subclasses `NamedThreadPool`, `PriorityThreadPool` and
  `OrderedThreadPool` are one datatype with a kind tag (module `Pools`).
  The pool keeps a table, its key order, an active view rebuilt from the
  table, a function-to-id map and an id counter. `TimerFramework` and the
  timer generator (module `Timers`) are a timer state machine stepped at an
  integer clock, plus a framework record holding the named pool and each
  generator object's timer state.
- **Ini store** (`common/ini.py`). `DictIniWrapper`'s entry operations work
  on a map of sections to keys to entry lists (module `IniStore`).
  `IniManager`'s name-keyed registry of loaded files holds the template path
  attribute as well (module `IniManager`).

`Options` (an option type) and `Seqs` (duplicate-freedom, and
`RemoveFirst`, which is Python's `list.remove` on an element that is in
the list) are shared helpers.

The files are `common.dfy`, `tasks.dfy`, `locations.dfy`, `pools.dfy`,
`timers.dfy`, `ini.dfy` and `ini_manager.dfy`. All of them are verified
together in one `dafny verify` call.

Where the code differs from what its documentation says, the model follows
the code:

- A timer created with `repeat = n >= 0` fires `n + 1` times, not `n`
  (`Timers.RepeatBound`, `Timers.RepeatTwoFiresThrice`).
- `last_run` is set on the timer's first resume, not when the timer is
  added. Under `run_now` it is seeded with the constant 1, which on the
  source's epoch clock lies long in the past, so the first resume fires as
  documented. The model's clock is an integer that starts wherever the
  caller says; only there, at clocks below `1 + delay`, does a `run_now`
  timer not fire on its first resume (`Timers.FirstResume`).
- Finished timers are never removed from the pool by `process_timers`
  (see Findings).
- The ThreadPool docstring (framework/timers.py:69) says priority is
  assigned by adding a thread to the stream that many times. The base
  pool's active view holds each row's generator object once
  (`Pools.ActiveIsTable`); only `PriorityThreadPool.__getitem__` repeats
  the object `max(1, priority)` times (`Pools.PriorityGet`).
- `clean` tests the caller's raw context for membership before mapping it
  to `"__global__"`. A global hook is therefore cleaned only by the literal
  context `"__global__"` (`Locations.CleanGlobalOnlyBySentinel`).

## Model

| member | source | states |
|---|---|---|
| Seqs.RemoveFirstSpec | framework/timers.py:117 | `list.remove` takes out the first occurrence of a present element and keeps the others in order (so the multiset loses one copy and the length drops by one). Python raises ValueError for a missing element; the model's `RemoveFirst` returns the list unchanged there instead, and no call site reaches that case: `Pools.Remove` removes a key and a generator object that a well-formed pool lists, `IniStore.DelEntry` removes only after `HasEntry`, and `Locations.RemoveHook` only a registered hook |
| Tasks.FreshYieldsScriptThenStops | core/locations.py:105-108 | a fresh generator yields its script in order and stays live; the next resume raises StopIteration, and so does every resume after it (`gi_frame` is None) |
| Tasks.Resume | core/locations.py:155-156 | one `next` or `send`: a live task with script left yields the next scripted value and moves one place on; otherwise it raises StopIteration and is finished from then on |
| Tasks.DriveFollowsScript | core/locations.py:155-156 | resuming a live task n times, within its script, yields the next n scripted values and advances its position by n |
| Locations.RegisterLocation | core/locations.py:55-69 | declaring a location registers it with an empty hook dict, except the base class named "Location"; other locations are untouched |
| Locations.RegisterHook | core/locations.py:70-76 | declaring a hook stores it under its name with a fresh empty `states` dict, leaves other hooks alone, keeps the dict order (a new name goes last) and keeps the location well-formed |
| Locations.InitTask | core/locations.py:93-108 | a live task stored under the resolved key is returned as is; a missing or finished one is replaced by a fresh task primed once, or priming raises if the script is empty; no other context's task changes |
| Locations.GetOrInitState | core/locations.py:88-113 | an unknown hook name gives None and changes nothing; otherwise only that hook's states change, as InitTask says |
| Locations.GetOrInitStateKeepsWf | core/locations.py:93-108 | a global hook still holds at most the `"__global__"` key afterwards, and the location stays well-formed |
| Locations.GlobalHookSharesTask | core/locations.py:95-96 | for a global hook every context gets the same result: the same task and the same state change |
| Locations.GetOrInitStateSettles | core/locations.py:104-108 | asking again right after a successful lookup returns the same task and changes nothing |
| Locations.Clean | core/locations.py:127-134 | an unknown hook changes nothing; for a per-user hook exactly the context's entry leaves the states; other hooks and the order are untouched |
| Locations.CleanHook | core/locations.py:128-134 | `clean` on one hook: if the raw context is a key, the context resolved for the hook (`"__global__"` for a global hook) is deleted; otherwise the hook is unchanged |
| Locations.CleanKeyPresent | core/locations.py:131-134 | the remapped key is always present when deleted, so the deletion never raises KeyError |
| Locations.CleanGlobalOnlyBySentinel | core/locations.py:128-134 | cleaning a global hook with an ordinary context is a no-op; only the context `"__global__"` removes its task |
| Locations.CleanKeepsWf | core/locations.py:127-134 | cleaning keeps the location well-formed |
| Locations.StepHook | core/locations.py:148-158 | one dispatch of one hook: it raises iff priming raised; the verdict is the truthiness of what `send` yielded; only the resolved key's task can change |
| Locations.StepStoresOrPurges | core/locations.py:154-158 | a task that survives `send` and `next` stays stored, advanced two places; one that finishes is purged for a per-user hook, and for a global hook only when the context is `"__global__"` |
| Locations.FinishedTaskIsReplaced | core/locations.py:105-108 | after a task finishes in a dispatch, the next lookup builds and primes a brand-new task |
| Locations.StepHookScoped | core/locations.py:95-108 | a dispatch keeps a global hook's states within the `"__global__"` key |
| Locations.NonEmptyScriptNeverRaises | core/locations.py:106-108 | a generator that yields at least once never lets StopIteration escape a dispatch |
| Locations.PerUserContextsIsolated | core/locations.py:102-108 | a dispatch for one user leaves every other user's task of a per-user hook exactly as it was |
| Locations.GlobalHookSameStep | core/locations.py:95-96 | a global hook makes the same step whichever ordinary user the event comes from |
| Locations.StepHookDrivesTwice | core/locations.py:155-156 | a dispatch resumes the looked-up task twice (`send`, then `next`): its verdict is the first value the two resumes yield, and a task that does not finish is stored as the two resumes leave it |
| Locations.DriveHook | core/locations.py:148-158 | one iteration of `evaluate`'s loop: skip a name that is not registered, otherwise dispatch that hook and store it back |
| Locations.Dispatch | core/locations.py:147-160 | the loop over a snapshot of the hook names: stops at the first raising iteration and otherwise OR-s the verdicts |
| Locations.DriveHookSpec | core/locations.py:148-158 | one loop iteration: a name that is not (or no longer) registered is skipped; otherwise only that hook changes, as one dispatch of it; the iteration raises iff that dispatch does, and consumes the event iff the hook's verdict is true |
| Locations.DispatchFrame | core/locations.py:147-160 | the loop over a duplicate-free name list keeps the order and the hook names, leaves unlisted hooks alone, and when it completes each listed hook is dispatched once from its entry state |
| Locations.DispatchRaises | core/locations.py:147-160 | the loop over a duplicate-free list raises iff some listed registered hook's priming raises |
| Locations.DispatchConsumed | core/locations.py:147-160 | when the loop over a duplicate-free list completes, its result is true iff some listed registered hook's verdict was true |
| Locations.Evaluate | core/locations.py:145-160 | with no hooks, `evaluate` returns false and changes nothing |
| Locations.DispatchSpec | core/locations.py:147-160 | over a duplicate-free name list, each registered hook is driven once from its entry state and unregistered names are skipped; the loop raises iff some priming raised; otherwise the result is true iff some driven hook's `send` gave a truthy verdict |
| Locations.EvaluateSpec | core/locations.py:136-160 | `evaluate` steps every hook once; it is true iff some hook consumed the event, unless a priming raised; the location stays well-formed |
| Locations.RemoveHook | core/locations.py:115-125 | an assertion failure while registered subclasses exist, a KeyError for an unregistered name, and otherwise only that hook (and its states) leaves the location, which stays well-formed |
| Locations.HooksFrom | core/locations.py:162-164 | the names kept are exactly the registered hooks whose file is the path, and none more often than in the order |
| Locations.GetHooksFor | core/locations.py:162-164 | `get_hooks_for(path)` lists exactly the location's hooks from that file, each once |
| Pools.EntriesOf | framework/timers.py:108 | `values()` lists the table's rows in key order, one per key |
| Pools.SortByPriority | framework/timers.py:148-150 | the ordered pool's sort is a permutation of the rows, is ascending by priority, and is stable: the rows of each priority keep their relative order |
| Pools.InsertStable | framework/timers.py:148-150 | inserting one row into a sorted list puts it ahead of the rows of its own priority and leaves the order among those rows as it was, which makes the insertion sort over the list from the back stable |
| Pools.SortTasks | framework/timers.py:148-150 | sorting keeps the same generator objects |
| Pools.SortRemove | framework/timers.py:148-150 | sorting commutes with removing one row, so a rebuilt view and a shrunk view agree |
| Pools.EmptyWf | framework/timers.py:76-83 | a new pool satisfies the pool invariant |
| Pools.Append | framework/timers.py:97-109 | the base pools record the function under the next sequential id in the function-to-id map, return that id and count it; NamedThreadPool returns None and never records the function |
| Pools.AppendThenRemoveByObj | framework/timers.py:97-120 | on the base, priority and ordered pools, `remove_by_obj` of the function just appended finds it through the function-to-id map and restores the table, its key order and the active view |
| Pools.AppendWf | framework/timers.py:97-136 | appending keeps the pool invariant: the key order matches the table, generator objects are distinct, and the active view equals the one rebuilt from the table |
| Pools.AppendFinds | framework/timers.py:101-109 | the new row sits under the returned fresh id, `query` gives its description (the docstring, or else the function's `__doc__`), `[]` gives its generator object, and every older row is unchanged |
| Pools.AppendView | framework/timers.py:108 | the active view after an append is the old rows plus the new one, arranged by the pool's `sort` |
| Pools.AppendActive | framework/timers.py:102-108 | the new generator object was not active before; it is appended last in the base and priority pools and added once in the ordered pool |
| Pools.NamedAppendReplaces | framework/timers.py:127-136 | a NamedThreadPool append under an existing name replaces that row in place: the old generator object leaves the active view and the new one joins it |
| Pools.NamedAppendFrame | framework/timers.py:127-136 | a NamedThreadPool append files the new row under the function's name and leaves every other row alone; a new name goes last in the key order and its object last in the active view; an existing name keeps its place and its new object takes the old one's place |
| Pools.Remove | framework/timers.py:111-117 | removing an unknown id is a silent no-op; otherwise exactly that key leaves the table, and the kind, the function-to-id map and the counters stay |
| Pools.RemoveKeepsOrder | framework/timers.py:111-117 | `del` takes the key out of the key order and keeps the other keys in order; `active_threads.remove` takes the row's generator object out of the active view and keeps the other objects in order |
| Pools.RemoveWf | framework/timers.py:111-117 | `remove` keeps the pool invariant, with the shrunk active view equal to the rebuilt one |
| Pools.RemoveSpec | framework/timers.py:111-117 | on a well-formed pool the key leaves the key order and the row's generator object leaves the active view, with the other keys and objects kept in their order; `query` then gives None; other rows are unchanged |
| Pools.AppendThenRemove | framework/timers.py:97-117 | removing the id `append` just returned restores the table, its key order and the active view |
| Pools.RemoveByObj | framework/timers.py:119-120 | a generator function found in the function-to-id map is removed by its id; anything else is a no-op |
| Pools.RemoveByObjMisses | framework/timers.py:119-120 | `remove_by_obj` is a no-op for every generator object, and for everything on a NamedThreadPool |
| Pools.Query | framework/timers.py:122-124 | the row's description for a present id, None otherwise |
| Pools.GetItemAsWritten | framework/timers.py:85-86 | `__getitem__` as written: the row's generator object, and IndexError exactly for an unknown id |
| Pools.GetItemMissingRaises | framework/timers.py:85-86 | id 0 on an empty pool raises IndexError |
| Pools.GetItem | framework/timers.py:85-86 | corrected `__getitem__`: the row's generator object, or None exactly for an unknown id |
| Pools.GetItemAgrees | framework/timers.py:85-86 | the corrected lookup agrees with the written one wherever the written one does not raise |
| Pools.PriorityGet | framework/timers.py:139-145 | the row's generator object repeated `max(1, priority)` times, or None for an unknown id |
| Pools.PriorityGetAgrees | framework/timers.py:139-145 | the priority pool's `[]` finds a row exactly when the base lookup does, and then lists at least one entry, among them the base lookup's generator object |
| Pools.ActiveIsTable | framework/timers.py:88-91 | iteration lists exactly the generator objects of the table's rows, each once |
| Pools.KeyOf | framework/timers.py:15-19 | the key whose row holds a given generator object, or None when no row does |
| Pools.RemoveTaskSpec | framework/timers.py:15-19 | removing by generator object takes exactly that object out of iteration and its row's key out of the key order, keeps the other objects and keys in their order, keeps the invariant and the other rows, and changes nothing when no row holds the object |
| Timers.Step | framework/timers.py:34-47 | one resume: a finished generator stops again with nothing changed; stopping otherwise needs a firing with `repeat == 0`; a firing leaves the timer finished or waiting with `last_run = now`; without a firing `repeat` is unchanged |
| Timers.Check | framework/timers.py:39-47 | one pass of the loop body: fire when `now - last_run >= delay`, then return if `repeat == 0`, otherwise count a positive `repeat` down and set `last_run = now`; without a firing only the phase records `last_run` |
| Timers.StepBudget | framework/timers.py:43-46 | one resume keeps the firing budget: a finished timer has fired exactly `n + 1` times, and otherwise `repeat` plus the firings so far equals `n` |
| Timers.Trace | framework/timers.py:34-47 | resumes a timer once per clock reading and collects the clocks at which it fired |
| Timers.TraceBudget | framework/timers.py:39-47 | the firing budget holds across any sequence of resumes |
| Timers.RepeatBound | framework/timers.py:43-47 | `repeat = n >= 0` allows at most `n + 1` firings, and the generator has returned iff there were exactly `n + 1`; a negative `repeat` never returns and never changes |
| Timers.RepeatTwoFiresThrice | framework/timers.py:37-47 | delay 5 and repeat 2, resumed at clocks 0, 5, 10, 15: it fires at 5, 10 and 15 and has then returned |
| Timers.FirstResume | framework/timers.py:37-42 | the first resume seeds `last_run` at 1 under `run_now` and at the current clock otherwise, and fires iff the clock minus that seed is at least the delay |
| Timers.WaitingFires | framework/timers.py:40-42 | a waiting timer fires iff `now - last_run >= delay`; without a firing it is unchanged |
| Timers.FiringsSpaced | framework/timers.py:40-42 | successive firings lie at least `delay` apart, the first at least `delay` after the stored `last_run`; a finished timer never fires |
| Timers.InitConsistent | framework/timers.py:4-5 | a new framework's named pool satisfies the framework invariant |
| Timers.AddTimer | framework/timers.py:22-53 | the returned closure carries the callback's `__name__` and `__doc__`; the pool kind is kept |
| Timers.AddTimerConsistent | framework/timers.py:49-53 | adding a timer keeps the framework invariant |
| Timers.AddTimerSpec | framework/timers.py:49-53 | the new timer is filed under the callback's name with its docstring, is active, and is not yet started; a timer that was filed under the same name leaves the active view; every other timer stays filed, active and in its state; a new name's timer is iterated last |
| Timers.RemoveTimer | framework/timers.py:55-64 | `remove_timer`: a string is removed as a key of the named pool; anything else goes to `remove_by_obj` |
| Timers.RemoveTimerByName | framework/timers.py:55-62 | removing by name takes exactly that timer out of the active view, keeps the other timers in their order and their states, and keeps the invariant; the name leaves the table, so the corrected lookup `GetItem` gives None (as written `[]` raises IndexError there) |
| Timers.RemoveTimerByObjIsNoop | framework/timers.py:63-64 | removing by the closure `add_timer` returned changes nothing |
| Timers.AddThenRemoveByObjKeeps | framework/timers.py:52-64 | as written, `remove_timer` given the closure `add_timer` just returned leaves that timer active |
| Timers.CancelTimer | framework/timers.py:55-64 | corrected `remove_timer`: a name is removed as written; a closure is removed through the name it was filed under |
| Timers.AddThenCancel | framework/timers.py:49-64 | cancelling a just-added timer by its closure takes it out of the active view and keeps the framework invariant |
| Timers.StepAll | framework/timers.py:15-17 | stepping the active timers keeps the set of known generator objects; over a duplicate-free list each listed timer is resumed exactly once and every other timer is left as it was |
| Timers.ProcessTimersAsWritten | framework/timers.py:7-19 | `process_timers` as written: steps every active timer and hands each one that stopped, as a generator object, to `remove_by_obj` |
| Timers.ProcessAsWrittenSteps | framework/timers.py:15-19 | a pass as written leaves the pool as it was and resumes every active timer exactly once, leaving the others alone |
| Timers.RemoveEachByObjMisses | framework/timers.py:18-19 | passing stopped generator objects to `remove_by_obj` leaves the pool as it was |
| Timers.StepAllFinished | framework/timers.py:15-18 | a finished timer's state survives a pass unchanged |
| Timers.ProcessKeepsFinishedTimers | framework/timers.py:7-19 | as written, a pass leaves the pool as it was: a finished timer stays active, stays finished, and stops again |
| Timers.ProcessTimers | framework/timers.py:7-19 | corrected pass: every active timer is resumed once; exactly the ones that stop leave the active view; `fired` lists exactly those that fired; the framework invariant holds |
| IniStore.AddEntry | common/ini.py:19-33 | true iff the entry was absent; when false, nothing changes and nothing is saved; otherwise the entry is appended to the key's list (or the list `[entry]` is created), the file is saved, and no other key changes |
| IniStore.HasEntry | common/ini.py:9-17 | the section exists, the key exists in it, and the entry is in the key's list |
| IniStore.DelEntry | common/ini.py:35-48 | true iff the entry was present; when false, nothing changes; otherwise the entry's first occurrence leaves the list and the other entries keep their order, the key goes iff its list empties, the section stays, the file is saved, and no other key changes |
| IniStore.DelTakesOne | common/ini.py:35-48 | a successful `del_entry` takes exactly one copy of the entry off the key's list |
| IniStore.SetEntry | common/ini.py:50-58 | the key holds exactly `[entry]` whatever it held before; saved; true; no other key changes |
| IniStore.AddTwice | common/ini.py:25-26 | the second add of the same entry returns false and neither changes nor saves the file |
| IniStore.AddKeepsSetLike | common/ini.py:19-33 | `add_entry` keeps every list duplicate-free |
| IniStore.DelRemovesEntry | common/ini.py:35-48 | on duplicate-free lists, a successful `del_entry` leaves `has_entry` false |
| IniStore.AddThenDel | common/ini.py:19-48 | adding an absent entry and deleting it restores the sections, except an auto-created empty section stays and a key that held an empty list is gone; two saves |
| IniStore.SetThenDel | common/ini.py:35-58 | after `set_entry` the entry is present, and deleting it removes the key |
| IniManager.Load | common/ini.py:93-99 | a successful `load` registers the file under the lower-cased name, so `loaded` holds; every other attribute is still present and holds what it held |
| IniManager.Lower | common/ini.py:93 | `name.lower()` on ASCII letters: same length, each letter mapped to lower case |
| IniManager.IsLoaded | common/ini.py:76-84 | `loaded(name)`: the lower-cased name is an attribute, read as the Python 2 code it is written as (see "## Left out") |
| IniManager.LoadLoweredName | common/ini.py:93-99 | loading under an already lower-cased name registers the same attribute, and `loaded` agrees on the two names |
| IniManager.Unload | common/ini.py:116-129 | true iff the lower-cased name was registered, which it no longer is; saves only then and only when asked; raises when asked to save the template path |
| IniManager.LoadThenUnload | common/ini.py:86-129 | loading a file that was not loaded and unloading it restores the manager |
| IniManager.ApplyAt | common/ini.py:167-244 | an entry operation on a name that is not an attribute returns false and changes nothing; on the template path `del_entry` returns false (its `has_entry` call looks the tuple itself up and catches the KeyError) and the other three raise; on a loaded file it is the wrapper's own operation |
| IniManager.EntryOp | common/ini.py:167-244 | the manager's entry operations as written: the attribute named exactly as given |
| IniManager.EntryOpSpec | common/ini.py:173-178 | the entry operations as written: the name is looked up as given; a missing name gives false with nothing changed |
| IniManager.HasEntryReadOnly | common/ini.py:167-182 | the manager's `has_entry` never changes anything and agrees with the file's `has_entry` |
| IniManager.TemplatePathOps | common/ini.py:173-221 | `temp_path` is an attribute, so `loaded("temp_path")` holds; `has_entry`, `add_entry` and `set_entry` on it raise, while `del_entry` returns false and changes nothing |
| IniManager.MixedCaseNameMisses | common/ini.py:190-195 | a file loaded as "Ops" is reported loaded, yet every entry operation given "Ops" returns false |
| IniManager.EntryOpLowered | common/ini.py:173-178 | corrected entry operations: the attribute named by the lower-cased name, as `load` registers it |
| IniManager.EntryOpLoweredFinds | common/ini.py:93-99 | with the name lower-cased, an entry operation reaches the file `load` registered, whatever the name's case, and agrees with the written form on lower-case names |

## Left out

- The metaclass machinery (core/locations.py:32-76) is replaced by explicit `RegisterLocation`/`RegisterHook` calls. The empty `Location` subclasses add nothing.
- Hook bodies, timer callbacks and the values sent into a hook are not modelled. A hook task is its script of verdicts. A timer firing is a recorded clock value. Exceptions other than StopIteration, raised from inside a hook body, are not modelled.
- Wall-clock `time.time()` floats are replaced by an integer clock passed to every step. `time` is not imported by framework/timers.py at all.
- `Location.remove` called on a location class (rather than a hook) is not modelled. The `del cls` line has no effect on shared state.
- `OrderedThreadPool.sort` calls `sort` with a Python 2 comparator on the dict's values view. Under Python 3 that view has no `sort` method and `cmp` does not exist, so the call fails. It is modelled as the stable ascending sort that is evidently meant.
- `IniManager.load`'s disk read, `readall`, `saveall`, `rename`, `_merge_template` and `_read_or_prompt` are file I/O or interactive prompts. `load` is modelled only as the successful registration of already-read contents. A `load` whose read fails after registering is not modelled. `save()` is a counter.
- Entry operations on `IniManager` given a DictIni object rather than a name are not modelled. They then are the `IniStore` operations themselves.
- IniManager.Lower: ASCII letters only. Python's `str.lower` also folds non-ASCII letters.
- Seqs.RemoveFirst: on an element that is not in the list, Python's `list.remove` raises ValueError, while the model returns the list unchanged. Every call site removes only an element it has shown to be present, so the raise is never reached.
- IniManager.IsLoaded: `loaded` (common/ini.py:108-114) calls `__get__` (common/ini.py:76-84), which is modelled as the Python 2 code it is written as: `isinstance(name, basestring)` and `self.__dict__.has_key(...)`. Under Python 3, the reading the rest of the core needs (`nonlocal` at framework/timers.py:36, `metaclass=` at core/locations.py:32), `basestring` is undefined and `loaded(name)` raises NameError before it tests anything. The model returns the membership test the code evidently means.
- Timers.CancelTimer: a closure is cancelled through its callback's name. If a later `add_timer` filed another timer under the same name, an old closure therefore cancels that newer timer. `Timers.AddThenCancel` proves only that a just-added closure cancels its own timer.
- Timers.ProcessTimers: resumes the snapshot of the active view taken on entry. It removes stopped generators after resuming them. A Python loop that removed from the list it iterates would skip the next element; the corrected pass does not model that.
- Locations.RemoveHook: the assertion counts as subclasses only the hooks still registered at the location. Python's `__subclasses__()` also lists a removed hook class for as long as it stays alive, which depends on garbage collection and on who else holds the class. So where such a class lingers, the model reports a removal that the source's assertion refuses.
- plugins/plugin_admin.py and gbot/mounts.py are not part of this model.

## Findings

| source | as written | input that shows it | evidently intended | confidence | as-written member | corrected member |
|---|---|---|---|---|---|---|
| framework/timers.py:85-86 | an unknown id makes `__getitem__` index position 1 of the one-element default list | `pool[0]` on an empty pool raises IndexError | return None for an unknown id, as `query` does with the same default | high, not executed | Pools.GetItemAsWritten, Pools.GetItemMissingRaises | Pools.GetItem, Pools.GetItemAgrees |
| framework/timers.py:15-19 | `process_timers` hands a stopped generator object to `remove_by_obj`, which only knows generator functions, and the NamedThreadPool never records those anyway | a timer with `repeat = 0` that has fired stays in the active view, and every later pass resumes it and raises StopIteration again | a finished timer leaves the pool, as the method's own documentation says | high, not executed | Timers.ProcessKeepsFinishedTimers | Timers.ProcessTimers |
| framework/timers.py:63-64 | `remove_timer` hands a non-string to `remove_by_obj`, but the NamedThreadPool files timers by name and never fills the function-to-id map | `t = add_timer(5, cb)`, then `remove_timer(t)`: the timer stays active and keeps firing | cancel the timer the closure names, through the name it was filed under | medium, not executed | Timers.RemoveTimerByObjIsNoop, Timers.AddThenRemoveByObjKeeps | Timers.CancelTimer, Timers.AddThenCancel |
| common/ini.py:173-178 | the entry operations look the name up as given, while `load` registers it lower-cased | `load("Ops")`, then `add_entry("Ops", ...)` returns false although `loaded("Ops")` is true | look up `name.lower()`, as `load`, `loaded` and `unload` do | medium, not executed | IniManager.MixedCaseNameMisses | IniManager.EntryOpLoweredFinds |

=== FILE: common.dfy ===
/** Small shared vocabulary: an optional value and the sequence facts the
    registries need (Python's `list.remove` and duplicate-freedom). */
module Options {

  /** Python's `None` or a present value. */
  datatype Option<+T> = None | Some(value: T)
}

module Seqs {

  /** No element occurs twice (a dict's key order, a pool's task list). */
  ghost predicate NoDup<T(!new)>(s: seq<T>) {
    forall x :: multiset(s)[x] <= 1
  }

  /** Python's `list.remove(x)`: drops the first occurrence of `x`. Python
      raises ValueError when `x` is absent; every caller in this model only
      removes elements it has shown to be present, and the absent case is
      the identity here. */
  function RemoveFirst<T(==)>(s: seq<T>, x: T): seq<T> {
    if |s| == 0 then []
    else if s[0] == x then s[1..]
    else [s[0]] + RemoveFirst(s[1..], x)
  }

  /** Where `x` first occurs in `s`. */
  function IndexOf<T(==)>(s: seq<T>, x: T): (i: nat)
    requires x in s
    ensures i < |s| && s[i] == x && x !in s[..i]
  {
    if s[0] == x then 0
    else
      assert s == [s[0]] + s[1..];
      var j := IndexOf(s[1..], x);
      assert s[..j + 1] == [s[0]] + s[1..][..j];
      j + 1
  }

  /** `remove` takes out the first occurrence of `x` when there is one,
      keeping the rest in order, and nothing otherwise. */
  lemma RemoveFirstSpec<T>(s: seq<T>, x: T)
    ensures x in s ==> RemoveFirst(s, x) == s[..IndexOf(s, x)] + s[IndexOf(s, x) + 1..]
    ensures multiset(RemoveFirst(s, x)) == multiset(s) - multiset{x}
    ensures x !in s ==> RemoveFirst(s, x) == s
    ensures x in s ==> |RemoveFirst(s, x)| == |s| - 1
  {
    RemoveFirstMultiset(s, x);
    RemoveFirstAbsent(s, x);
    if x in s {
      RemoveFirstAt(s, x);
    }
    var r := RemoveFirst(s, x);
    assert |multiset(r)| == |r| && |multiset(s)| == |s|;
    if x in s {
      assert x in multiset(s);
      assert multiset(s) == multiset(r) + multiset{x};
    }
  }

  lemma {:induction false} RemoveFirstMultiset<T>(s: seq<T>, x: T)
    ensures multiset(RemoveFirst(s, x)) == multiset(s) - multiset{x}
    decreases |s|
  {
    if |s| > 0 {
      var s0, t := s[0], s[1..];
      assert multiset(s) == multiset{s0} + multiset(t) by {
        assert s == [s0] + t;
      }
      RemoveFirstMultiset(t, x);
      if s0 != x {
        var rt := RemoveFirst(t, x);
        assert multiset([s0] + rt) == multiset{s0} + multiset(rt);
      }
    }
  }

  lemma {:induction false} RemoveFirstAt<T>(s: seq<T>, x: T)
    requires x in s
    ensures RemoveFirst(s, x) == s[..IndexOf(s, x)] + s[IndexOf(s, x) + 1..]
    decreases |s|
  {
    if s[0] == x {
      assert s[..0] == [];
    } else {
      assert s == [s[0]] + s[1..];
      var t := s[1..];
      RemoveFirstAt(t, x);
      var j := IndexOf(t, x);
      assert IndexOf(s, x) == j + 1;
      assert s[..j + 1] == [s[0]] + t[..j];
      assert s[j + 2..] == t[j + 1..];
    }
  }

  lemma {:induction false} RemoveFirstAbsent<T>(s: seq<T>, x: T)
    ensures x !in s ==> RemoveFirst(s, x) == s
    decreases |s|
  {
    if |s| > 0 && x !in s {
      var s0, t := s[0], s[1..];
      assert s == [s0] + t;
      RemoveFirstAbsent(t, x);
    }
  }

  lemma NoDupRemoveFirst<T(!new)>(s: seq<T>, x: T)
    requires NoDup(s)
    ensures NoDup(RemoveFirst(s, x))
    ensures x !in RemoveFirst(s, x)
    ensures forall y :: y != x ==> (y in RemoveFirst(s, x) <==> y in s)
  {
    var r := RemoveFirst(s, x);
    RemoveFirstSpec(s, x);
    forall y ensures multiset(r)[y] <= 1 {
      assert multiset(s)[y] <= 1;
    }
    assert multiset(s)[x] <= 1;
    assert multiset(r)[x] == 0;
    forall y | y != x ensures y in r <==> y in s {
      assert multiset(r)[y] == multiset(s)[y];
    }
  }

  /** The head of a duplicate-free sequence does not recur in its tail. */
  lemma NoDupSplit<T(!new)>(s: seq<T>)
    requires NoDup(s) && |s| > 0
    ensures NoDup(s[1..]) && s[0] !in s[1..]
  {
    assert s == [s[0]] + s[1..];
    assert multiset(s) == multiset{s[0]} + multiset(s[1..]);
    forall y ensures multiset(s[1..])[y] <= 1 {
      assert multiset(s)[y] <= 1;
    }
    assert multiset(s)[s[0]] <= 1;
  }

  /** Duplicate-freedom read index-wise. */
  lemma NoDupDistinct<T(!new)>(s: seq<T>, i: int, j: int)
    requires NoDup(s) && 0 <= i < j < |s|
    ensures s[i] != s[j]
  {
    var a, b := s[..j], s[j..];
    assert s == a + b;
    assert multiset(s) == multiset(a) + multiset(b);
    assert a[i] == s[i] && b[0] == s[j];
    assert multiset(a)[s[i]] >= 1 && multiset(b)[s[j]] >= 1;
    assert multiset(s)[s[i]] <= 1;
  }

  lemma RemoveFirstCons<T>(x: T, t: seq<T>, y: T)
    ensures RemoveFirst([x] + t, y) == if x == y then t else [x] + RemoveFirst(t, y)
  {
    assert ([x] + t)[0] == x && ([x] + t)[1..] == t;
  }

  lemma {:induction false} RemoveFirstAppended<T>(s: seq<T>, x: T)
    requires x !in s
    ensures RemoveFirst(s + [x], x) == s
    decreases |s|
  {
    if |s| == 0 {
      assert s + [x] == [x] + [];
      RemoveFirstCons(x, [], x);
    } else {
      var s0, t := s[0], s[1..];
      assert s == [s0] + t;
      assert s + [x] == [s0] + (t + [x]);
      RemoveFirstCons(s0, t + [x], x);
      RemoveFirstAppended(t, x);
    }
  }
}

=== FILE: ini.dfy ===
/** `DictIniWrapper` of `common/ini.py`: an ini file held as sections of
    keys, each key holding a list of entries, with set-like insertion.
    Reading and writing the file are not modelled; `save()` is counted, so a
    contract can say whether an operation saved. Indexing a section that is
    not there yields a new empty section (dict4ini's auto-vivification),
    which stays in the file. */
module IniStore {
  import opened Seqs

  type Section = map<string, seq<string>>

  datatype Ini = Ini(sections: map<string, Section>, saves: nat)

  /** `ini[section]`: the section, or the empty one it creates. */
  function SectionOf(ini: Ini, section: string): Section {
    if section in ini.sections then ini.sections[section] else map[]
  }

  /** `has_entry(section, key, entry)`. */
  predicate HasEntry(ini: Ini, section: string, key: string, entry: string) {
    section in ini.sections && key in ini.sections[section] && entry in ini.sections[section][key]
  }

  /** An operation's result: the file afterwards and the returned flag. */
  datatype Outcome = Outcome(ini: Ini, ok: bool)

  /** Nothing outside `ini.sections[section][key]` differs between `a` and
      `b`, apart from `section` possibly being new in `b`. */
  ghost predicate OnlyKeyChanged(a: Ini, b: Ini, section: string, key: string) {
    && b.sections.Keys == a.sections.Keys + {section}
    && (forall s :: s in a.sections && s != section ==> b.sections[s] == a.sections[s])
    && (forall k :: k in SectionOf(a, section) && k != key ==>
          k in b.sections[section] && b.sections[section][k] == a.sections[section][k])
    && (forall k :: k in b.sections[section] && k != key ==> k in SectionOf(a, section))
  }

  /** `add_entry(section, key, entry)`: false, unsaved and unchanged when
      the entry is already there; otherwise it is appended to the key's
      list, or the key is created holding just it, and the file is saved. */
  function AddEntry(ini: Ini, section: string, key: string, entry: string): (r: Outcome)
    ensures r.ok <==> !HasEntry(ini, section, key, entry)
    ensures !r.ok ==> r.ini == ini
    ensures r.ok ==>
      && r.ini.saves == ini.saves + 1
      && HasEntry(r.ini, section, key, entry)
      && r.ini.sections[section][key] ==
           (if key in SectionOf(ini, section) then ini.sections[section][key] else []) + [entry]
      && OnlyKeyChanged(ini, r.ini, section, key)
  {
    if HasEntry(ini, section, key, entry) then Outcome(ini, false)
    else
      var sec := SectionOf(ini, section);
      var list := if key in sec then sec[key] + [entry] else [entry];
      Outcome(Ini(ini.sections[section := sec[key := list]], ini.saves + 1), true)
  }

  /** `del_entry(section, key, entry)`: false, unsaved and unchanged when
      the entry is not there; otherwise its first occurrence leaves the
      list, the others keeping their order, a list left empty takes its key
      with it (the section stays),
      and the file is saved. */
  function DelEntry(ini: Ini, section: string, key: string, entry: string): (r: Outcome)
    ensures r.ok <==> HasEntry(ini, section, key, entry)
    ensures !r.ok ==> r.ini == ini
    ensures r.ok ==>
      var before := ini.sections[section][key];
      && r.ini.saves == ini.saves + 1
      && section in r.ini.sections
      && (key in r.ini.sections[section] <==> |before| > 1)
      && (key in r.ini.sections[section] ==>
            r.ini.sections[section][key] == before[..IndexOf(before, entry)] + before[IndexOf(before, entry) + 1..])
      && OnlyKeyChanged(ini, r.ini, section, key)
  {
    if !HasEntry(ini, section, key, entry) then Outcome(ini, false)
    else
      var sec := ini.sections[section];
      var list := RemoveFirst(sec[key], entry);
      RemoveFirstAt(sec[key], entry);
      var sec' := if |list| == 0 then sec - {key} else sec[key := list];
      Outcome(Ini(ini.sections[section := sec'], ini.saves + 1), true)
  }

  /** `set_entry(section, key, entry)`: the key holds exactly `[entry]`
      whatever it held before; always saves and returns true. */
  function SetEntry(ini: Ini, section: string, key: string, entry: string): (r: Outcome)
    ensures r.ok
    ensures r.ini.saves == ini.saves + 1
    ensures section in r.ini.sections && key in r.ini.sections[section]
    ensures r.ini.sections[section][key] == [entry]
    ensures OnlyKeyChanged(ini, r.ini, section, key)
  {
    var sec := SectionOf(ini, section);
    Outcome(Ini(ini.sections[section := sec[key := [entry]]], ini.saves + 1), true)
  }

  // ---------------------------------------------------------------------
  // properties across operations
  // ---------------------------------------------------------------------

  /** Insertion is set-like: adding the same entry twice succeeds once, and
      the second call neither changes nor saves the file. */
  lemma AddTwice(ini: Ini, section: string, key: string, entry: string)
    ensures var first := AddEntry(ini, section, key, entry);
      AddEntry(first.ini, section, key, entry) == Outcome(first.ini, false)
  {
  }

  /** No list holds the same entry twice. */
  ghost predicate SetLike(ini: Ini) {
    forall s, k :: s in ini.sections && k in ini.sections[s] ==> NoDup(ini.sections[s][k])
  }

  /** `add_entry` keeps every list duplicate-free. */
  lemma AddKeepsSetLike(ini: Ini, section: string, key: string, entry: string)
    requires SetLike(ini)
    ensures SetLike(AddEntry(ini, section, key, entry).ini)
  {
    var r := AddEntry(ini, section, key, entry);
    if r.ok {
      var before := if key in SectionOf(ini, section) then ini.sections[section][key] else [];
      assert NoDup(before);
      assert entry !in before;
      var after := before + [entry];
      assert multiset(after) == multiset(before) + multiset{entry};
      forall x ensures multiset(after)[x] <= 1 {
        assert multiset(before)[x] <= 1;
        assert x == entry ==> multiset(before)[x] == 0;
      }
    }
  }

  /** On a duplicate-free list, a successful `del_entry` takes the entry
      out for good: `has_entry` is false afterwards. */
  lemma DelRemovesEntry(ini: Ini, section: string, key: string, entry: string)
    requires SetLike(ini) && HasEntry(ini, section, key, entry)
    ensures var r := DelEntry(ini, section, key, entry);
      r.ok && !HasEntry(r.ini, section, key, entry) && SetLike(r.ini)
  {
    var r := DelEntry(ini, section, key, entry);
    var before := ini.sections[section][key];
    NoDupRemoveFirst(before, entry);
    RemoveFirstSpec(before, entry);
  }

  /** A successful `del_entry` takes exactly one copy of the entry off the
      key's list, whose other entries stay. */
  lemma DelTakesOne(ini: Ini, section: string, key: string, entry: string)
    requires HasEntry(ini, section, key, entry)
    ensures var r := DelEntry(ini, section, key, entry);
      var before := ini.sections[section][key];
      var after := if key in r.ini.sections[section] then r.ini.sections[section][key] else [];
      multiset(after) == multiset(before) - multiset{entry}
  {
    var before := ini.sections[section][key];
    RemoveFirstSpec(before, entry);
  }

  /** Adding a new entry and deleting it again restores every section as it
      was, except that a section that did not exist before is left behind
      empty, and a key that held an empty list loses it; the file was saved
      twice. */
  lemma AddThenDel(ini: Ini, section: string, key: string, entry: string)
    requires !HasEntry(ini, section, key, entry)
    ensures var added := AddEntry(ini, section, key, entry);
      var r := DelEntry(added.ini, section, key, entry);
      var sec := SectionOf(ini, section);
      && r.ok
      && r.ini.saves == ini.saves + 2
      && r.ini.sections == ini.sections[section := if key in sec && sec[key] == [] then sec - {key} else sec]
  {
    var sec := SectionOf(ini, section);
    var before := if key in sec then sec[key] else [];
    AddedSections(ini, section, key, entry);
    DelAppended(ini, section, key, entry);
    ShrinkGrown(sec, key, before, entry);
  }

  /** Deleting `entry` from the file `add_entry` left takes the key's list
      back to what it held before. */
  lemma DelAppended(ini: Ini, section: string, key: string, entry: string)
    requires !HasEntry(ini, section, key, entry)
    ensures var sec := SectionOf(ini, section);
      var before := if key in sec then sec[key] else [];
      var grown := sec[key := before + [entry]];
      DelEntry(Ini(ini.sections[section := grown], ini.saves + 1), section, key, entry) ==
        Outcome(Ini(ini.sections[section := if |before| == 0 then grown - {key} else grown[key := before]], ini.saves + 2), true)
  {
    var sec := SectionOf(ini, section);
    var before := if key in sec then sec[key] else [];
    var grown := sec[key := before + [entry]];
    var added := Ini(ini.sections[section := grown], ini.saves + 1);
    assert added.sections[section][key] == before + [entry];
    assert RemoveFirst(added.sections[section][key], entry) == before by {
      assert entry !in before;
      RemoveFirstAppended(before, entry);
    }
    DeletedSections(added, section, key, entry, before);
    assert added.sections[section := if |before| == 0 then grown - {key} else grown[key := before]]
      == ini.sections[section := if |before| == 0 then grown - {key} else grown[key := before]];
  }

  /** What a successful `add_entry` leaves, spelled out. */
  lemma AddedSections(ini: Ini, section: string, key: string, entry: string)
    requires !HasEntry(ini, section, key, entry)
    ensures var sec := SectionOf(ini, section);
      var before := if key in sec then sec[key] else [];
      AddEntry(ini, section, key, entry) ==
        Outcome(Ini(ini.sections[section := sec[key := before + [entry]]], ini.saves + 1), true)
  {
  }

  /** What a successful `del_entry` leaves, spelled out, given the list
      that removing the entry's first occurrence leaves. */
  lemma DeletedSections(ini: Ini, section: string, key: string, entry: string, list: seq<string>)
    requires HasEntry(ini, section, key, entry)
    requires RemoveFirst(ini.sections[section][key], entry) == list
    ensures var sec := ini.sections[section];
      DelEntry(ini, section, key, entry) ==
        Outcome(Ini(ini.sections[section := if |list| == 0 then sec - {key} else sec[key := list]], ini.saves + 1), true)
  {
  }

  /** The key-level half of `AddThenDel`: appending `entry` to the key's
      list and taking it off again restores the section, except that a key
      that held an empty list is gone. */
  lemma ShrinkGrown(sec: Section, key: string, before: seq<string>, entry: string)
    requires before == (if key in sec then sec[key] else [])
    ensures var grown := sec[key := before + [entry]];
      (if before == [] then grown - {key} else grown[key := before]) ==
      (if key in sec && sec[key] == [] then sec - {key} else sec)
  {
    var grown := sec[key := before + [entry]];
    if key !in sec {
      assert grown - {key} == sec;
    } else if sec[key] == [] {
      assert grown - {key} == sec - {key};
    } else {
      assert grown[key := before] == sec;
    }
  }

  /** `set_entry` makes `has_entry` true, and deleting that entry then
      removes the key altogether. */
  lemma SetThenDel(ini: Ini, section: string, key: string, entry: string)
    ensures var set_ := SetEntry(ini, section, key, entry);
      var r := DelEntry(set_.ini, section, key, entry);
      && HasEntry(set_.ini, section, key, entry)
      && r.ok
      && section in r.ini.sections
      && key !in r.ini.sections[section]
  {
  }
}

=== FILE: ini_manager.dfy ===
/** `IniManager` of `common/ini.py`: loaded ini files registered as
    attributes of the manager, under their lower-cased names. The
    attribute dictionary also holds `temp_path`, the template directory set
    by the constructor, which every name-based operation can reach. */
module IniManager {
  import opened IniStore

  /** An attribute of the manager: the template path tuple, or a loaded
      ini file. */
  datatype Slot = TemplatePath | Loaded(ini: Ini)

  datatype Manager = Manager(slots: map<string, Slot>)

  const TemplateAttr: string := "temp_path"

  /** `IniManager()`: only `temp_path` is set. */
  function Init(): Manager {
    Manager(map[TemplateAttr := TemplatePath])
  }

  /** `str.lower()` on ASCII letters. */
  function LowerChar(c: char): char {
    if 'A' <= c <= 'Z' then (c as int + 32) as char else c
  }

  function Lower(s: string): (r: string)
    ensures |r| == |s| && forall i :: 0 <= i < |s| ==> r[i] == LowerChar(s[i])
  {
    if |s| == 0 then "" else [LowerChar(s[0])] + Lower(s[1..])
  }

  /** Lower-casing twice changes nothing more. */
  lemma LowerIdempotent(s: string)
    ensures Lower(Lower(s)) == Lower(s)
  {
  }

  /** A name with no upper-case letter is its own lower-case form. */
  lemma {:induction false} LowerKeepsLowerCase(s: string)
    requires forall i :: 0 <= i < |s| ==> !('A' <= s[i] <= 'Z')
    ensures Lower(s) == s
  {
    if |s| > 0 {
      LowerKeepsLowerCase(s[1..]);
    }
  }

  /** `loaded(name)` / `__get__(name)`: the lower-cased name is an
      attribute. */
  predicate IsLoaded(m: Manager, name: string) {
    Lower(name) in m.slots
  }

  /** A successful `load(name)`: the file's contents (read from disk, not
      modelled) are registered under the lower-cased name. */
  function Load(m: Manager, name: string, ini: Ini): (r: Manager)
    ensures IsLoaded(r, name)
    ensures r.slots[Lower(name)] == Loaded(ini)
    ensures forall n :: n != Lower(name) ==> (n in r.slots <==> n in m.slots)
    ensures forall n :: n != Lower(name) && n in m.slots ==> r.slots[n] == m.slots[n]
  {
    Manager(m.slots[Lower(name) := Loaded(ini)])
  }

  /** Loading under an already lower-cased name registers the same
      attribute as loading under the name itself. */
  lemma LoadLoweredName(m: Manager, name: string, ini: Ini)
    ensures Load(m, Lower(name), ini) == Load(m, name, ini)
    ensures IsLoaded(m, Lower(name)) <==> IsLoaded(m, name)
  {
    LowerIdempotent(name);
  }

  /** What `unload` did: removed the attribute (saving the file first when
      asked), found nothing, or raised because `save()` was asked of the
      template path. */
  datatype Unloaded = Unloaded(m: Manager, ok: bool, saved: bool) | UnloadRaised

  /** `unload(name, save)`. */
  function Unload(m: Manager, name: string, save: bool): (r: Unloaded)
    ensures r.UnloadRaised? <==> save && Lower(name) in m.slots && m.slots[Lower(name)].TemplatePath?
    ensures r.Unloaded? ==>
      && (r.ok <==> IsLoaded(m, name))
      && !IsLoaded(r.m, name)
      && (forall n :: n != Lower(name) ==> (n in r.m.slots <==> n in m.slots))
      && (forall n :: n != Lower(name) && n in m.slots ==> r.m.slots[n] == m.slots[n])
      && (r.saved <==> r.ok && save)
  {
    var n := Lower(name);
    if n !in m.slots then Unloaded(m, false, false)
    else if save && m.slots[n].TemplatePath? then UnloadRaised
    else Unloaded(Manager(m.slots - {n}), true, save)
  }

  /** Loading a file that was not loaded and unloading it again restores
      the manager. */
  lemma LoadThenUnload(m: Manager, name: string, ini: Ini, save: bool)
    requires !IsLoaded(m, name)
    ensures Unload(Load(m, name, ini), name, save) == Unloaded(m, true, save)
  {
    assert m.slots[Lower(name) := Loaded(ini)] - {Lower(name)} == m.slots;
  }

  /** The four entry operations the manager forwards. */
  datatype Op = Has | Add | Del | Set

  /** The wrapper operation `op` on one file. `has_entry` changes nothing. */
  function Apply(ini: Ini, op: Op, section: string, key: string, entry: string): Outcome {
    match op
    case Has => Outcome(ini, HasEntry(ini, section, key, entry))
    case Add => AddEntry(ini, section, key, entry)
    case Del => DelEntry(ini, section, key, entry)
    case Set => SetEntry(ini, section, key, entry)
  }

  /** A manager operation's result, or the AttributeError/TypeError that
      indexing or `has_key` on the template path tuple raises. */
  datatype Result = Done(m: Manager, ok: bool) | Raised

  /** `op` on the attribute named exactly `attr`. On the template path
      tuple, `del_entry` first asks `has_entry` with the tuple itself, whose
      lookup in the attribute dict fails with a caught KeyError, and so
      returns false; the other three operations reach the tuple's missing
      `has_key` or string indexing and raise. */
  function ApplyAt(m: Manager, attr: string, op: Op, section: string, key: string, entry: string): (r: Result)
    ensures attr !in m.slots ==> r == Done(m, false)
    ensures r.Raised? <==> attr in m.slots && m.slots[attr].TemplatePath? && op != Del
    ensures attr in m.slots && m.slots[attr].TemplatePath? && op == Del ==> r == Done(m, false)
    ensures attr in m.slots && m.slots[attr].Loaded? ==>
      var o := Apply(m.slots[attr].ini, op, section, key, entry);
      r == Done(Manager(m.slots[attr := Loaded(o.ini)]), o.ok)
  {
    if attr !in m.slots then Done(m, false)
    else match m.slots[attr]
      case TemplatePath => if op == Del then Done(m, false) else Raised
      case Loaded(ini) =>
        var o := Apply(ini, op, section, key, entry);
        Done(Manager(m.slots[attr := Loaded(o.ini)]), o.ok)
  }

  /** `has_entry`/`add_entry`/`del_entry`/`set_entry(name, ...)` as
      written: the name is looked up exactly as given, not lower-cased. */
  function EntryOp(m: Manager, name: string, op: Op, section: string, key: string, entry: string): Result {
    ApplyAt(m, name, op, section, key, entry)
  }

  /** Given a name that is not an attribute, every entry operation returns
      false and changes nothing; on a loaded file it is the wrapper's own
      operation. */
  lemma EntryOpSpec(m: Manager, name: string, op: Op, section: string, key: string, entry: string)
    ensures name !in m.slots ==> EntryOp(m, name, op, section, key, entry) == Done(m, false)
    ensures name in m.slots && m.slots[name].Loaded? ==>
      var o := Apply(m.slots[name].ini, op, section, key, entry);
      && EntryOp(m, name, op, section, key, entry).Done?
      && EntryOp(m, name, op, section, key, entry).ok == o.ok
      && EntryOp(m, name, op, section, key, entry).m.slots[name] == Loaded(o.ini)
  {
  }

  /** `has_entry` never changes the manager. */
  lemma HasEntryReadOnly(m: Manager, name: string, section: string, key: string, entry: string)
    ensures var r := EntryOp(m, name, Has, section, key, entry);
      r.Done? ==> r.m == m && (r.ok <==> name in m.slots && HasEntry(m.slots[name].ini, section, key, entry))
  {
    if name in m.slots && m.slots[name].Loaded? {
      assert m.slots[name := Loaded(m.slots[name].ini)] == m.slots;
    }
  }

  /** The template path is reachable by name: `has_entry`, `add_entry`
      and `set_entry` on `temp_path` raise, while `del_entry` returns false
      and changes nothing. */
  lemma TemplatePathOps(op: Op, section: string, key: string, entry: string)
    ensures IsLoaded(Init(), TemplateAttr)
    ensures op != Del ==> EntryOp(Init(), TemplateAttr, op, section, key, entry) == Raised
    ensures op == Del ==> EntryOp(Init(), TemplateAttr, op, section, key, entry) == Done(Init(), false)
  {
    LowerKeepsLowerCase(TemplateAttr);
  }

  /** A file loaded as "Ops" is reported loaded under that name, yet every
      entry operation given "Ops" misses it and returns false. */
  lemma MixedCaseNameMisses(ini: Ini, op: Op, section: string, key: string, entry: string)
    ensures var m := Load(Init(), "Ops", ini);
      && IsLoaded(m, "Ops")
      && EntryOp(m, "Ops", op, section, key, entry) == Done(m, false)
  {
    var m := Load(Init(), "Ops", ini);
    assert Lower("Ops") == "ops";
    assert "Ops" != "ops" && "Ops" != TemplateAttr;
    assert m.slots.Keys == {TemplateAttr, "ops"};
  }

  /** The entry operations with the name lower-cased, as `load`, `loaded`
      and `unload` treat it. */
  function EntryOpLowered(m: Manager, name: string, op: Op, section: string, key: string, entry: string): Result {
    ApplyAt(m, Lower(name), op, section, key, entry)
  }

  /** With the name lower-cased, an entry operation reaches the file
      `load` registered under that name, whatever its case, and it agrees
      with the written one on lower-case names. */
  lemma EntryOpLoweredFinds(m: Manager, name: string, ini: Ini, op: Op, section: string, key: string, entry: string)
    ensures var o := Apply(ini, op, section, key, entry);
      var l := Load(m, name, ini);
      EntryOpLowered(l, name, op, section, key, entry) == Done(Manager(l.slots[Lower(name) := Loaded(o.ini)]), o.ok)
    ensures Lower(name) == name ==> EntryOpLowered(m, name, op, section, key, entry) == EntryOp(m, name, op, section, key, entry)
  {
  }
}

=== FILE: locations.dfy ===
/** The hook-dispatch engine of `core/locations.py`.

    A Location is a named dispatch point holding, in registration order, the
    hooks declared under it. Each hook owns its own map from a context key
    (a user's bare JID, or "__global__" for a hook with `use_global_state`)
    to a resumable task. The metaclass that registers locations and hooks as
    a side effect of class declaration is replaced by explicit register
    calls; a Location value plays the role of one location class, whose
    `hooks` dict is shared by all hooks declared under it. Python's dict
    iteration order is the `order` field. */
module Locations {
  import opened Options
  import opened Seqs
  import opened Tasks

  type HookName = string
  type Context = string

  /** The one key a global-state hook keeps its task under. */
  const GlobalKey: Context := "__global__"

  /** A hook class: its `use_global_state` flag, its source `file`, the hook
      class it derives from (if any), the script its generator function
      yields, and its own `states` dict. */
  datatype Hook = Hook(useGlobal: bool, file: string, base: Option<HookName>, script: seq<bool>, states: map<Context, Task>)

  /** A location class: its `hooks` dict, with its key order. */
  datatype Location = Location(order: seq<HookName>, hooks: map<HookName, Hook>)

  /** The `Locations` plugin dict: location name to location. */
  type Registry = map<string, Location>

  /** A global-state hook only ever stores its task under GlobalKey. */
  ghost predicate GlobalScoped(h: Hook) {
    h.useGlobal ==> h.states.Keys <= {GlobalKey}
  }

  /** The representation invariant every operation below preserves. */
  ghost predicate Wf(l: Location) {
    && NoDup(l.order)
    && (forall n :: n in l.order <==> n in l.hooks)
    && (forall n :: n in l.hooks ==> GlobalScoped(l.hooks[n]))
  }

  // ---------------------------------------------------------------------
  // Registration (the metaclass `__init__`)
  // ---------------------------------------------------------------------

  /** Declaring a location class registers it with an empty hook dict; the
      convenience base class itself, named "Location", is skipped. */
  function RegisterLocation(reg: Registry, name: string): (r: Registry)
    ensures name == "Location" ==> r == reg
    ensures name != "Location" ==> name in r && r[name].hooks == map[] && Wf(r[name])
    ensures forall n :: n != name ==> (n in r <==> n in reg) && (n in reg ==> r[n] == reg[n])
  {
    if name == "Location" then reg else reg[name := Location([], map[])]
  }

  /** Declaring a hook class under a location stores it in the location's
      hook dict under its name (replacing a previous hook of that name, which
      keeps its place in the dict's order) and gives it an empty `states`
      dict of its own. */
  function RegisterHook(l: Location, name: HookName, useGlobal: bool, file: string, base: Option<HookName>, script: seq<bool>): (r: Location)
    ensures name in r.hooks && r.hooks[name] == Hook(useGlobal, file, base, script, map[])
    ensures forall n :: n != name ==> (n in r.hooks <==> n in l.hooks) && (n in l.hooks ==> r.hooks[n] == l.hooks[n])
    ensures Wf(l) ==> Wf(r) && (name in l.hooks ==> r.order == l.order) && (name !in l.hooks ==> r.order == l.order + [name])
  {
    var order := if name in l.hooks then l.order else l.order + [name];
    var r := Location(order, l.hooks[name := Hook(useGlobal, file, base, script, map[])]);
    assert Wf(l) && name !in l.hooks ==> multiset(order) == multiset(l.order) + multiset{name};
    r
  }

  // ---------------------------------------------------------------------
  // get_or_init_state
  // ---------------------------------------------------------------------

  /** The context key a hook keeps a context's task under. */
  function Resolve(h: Hook, ctx: Context): Context {
    if h.useGlobal then GlobalKey else ctx
  }

  function Put(h: Hook, key: Context, t: Task): Hook {
    h.(states := h.states[key := t])
  }

  /** Result of `get_or_init_state` on one hook: the task, or the
      StopIteration a freshly built task raises when priming finds it
      already empty (the source does not catch that one). */
  datatype Init = Got(hook: Hook, task: Task) | PrimeRaised(hook: Hook)

  /** `get_or_init_state` for a registered hook: a live stored task is
      returned untouched; a missing or finished one is replaced by a fresh
      task, stored under the resolved key and primed once. */
  function InitTask(h: Hook, ctx: Context): (r: Init)
    ensures r.hook == h.(states := r.hook.states)
    ensures r.hook.states.Keys == h.states.Keys + {Resolve(h, ctx)}
    ensures forall c :: c in h.states && c != Resolve(h, ctx) ==> r.hook.states[c] == h.states[c]
    ensures r.Got? ==> Live(r.task) && r.hook.states[Resolve(h, ctx)] == r.task
    ensures var key := Resolve(h, ctx);
      key in h.states && Live(h.states[key]) ==> r == Got(h, h.states[key])
    ensures var key := Resolve(h, ctx);
      !(key in h.states && Live(h.states[key])) ==>
        if |h.script| > 0 then r.Got? && r.task == Task(h.script, 1, false)
        else r.PrimeRaised? && r.hook.states[key] == Task(h.script, 0, true)
  {
    var key := Resolve(h, ctx);
    if key in h.states && Live(h.states[key]) then Got(h, h.states[key])
    else match Resume(Fresh(h.script))
      case Yielded(_, t) => Got(Put(h, key, t), t)
      case Stopped(t) => PrimeRaised(Put(h, key, t))
  }

  /** Result of the location-level `get_or_init_state`. */
  datatype Lookup = Found(loc: Location, task: Option<Task>) | LookupRaised(loc: Location)

  /** `Location.get_or_init_state(name, context)`: None for an unknown hook
      name, with nothing changed; otherwise only that hook's states change. */
  function GetOrInitState(l: Location, name: HookName, ctx: Context): (r: Lookup)
    ensures name !in l.hooks ==> r == Found(l, None)
    ensures name in l.hooks ==>
      && r.loc.order == l.order
      && r.loc.hooks.Keys == l.hooks.Keys
      && (forall n :: n in l.hooks && n != name ==> r.loc.hooks[n] == l.hooks[n])
      && r.loc.hooks[name] == InitTask(l.hooks[name], ctx).hook
      && (r.Found? <==> InitTask(l.hooks[name], ctx).Got?)
      && (r.Found? ==> r.task == Some(InitTask(l.hooks[name], ctx).task))
  {
    if name !in l.hooks then Found(l, None)
    else match InitTask(l.hooks[name], ctx)
      case Got(h, t) => Found(l.(hooks := l.hooks[name := h]), Some(t))
      case PrimeRaised(h) => LookupRaised(l.(hooks := l.hooks[name := h]))
  }

  lemma InitTaskScoped(h: Hook, ctx: Context)
    requires GlobalScoped(h)
    ensures GlobalScoped(InitTask(h, ctx).hook)
  {
  }

  lemma GetOrInitStateKeepsWf(l: Location, name: HookName, ctx: Context)
    requires Wf(l)
    ensures Wf(GetOrInitState(l, name, ctx).loc)
  {
    if name in l.hooks {
      InitTaskScoped(l.hooks[name], ctx);
    }
  }

  /** A global-state hook hands every context the same task. */
  lemma GlobalHookSharesTask(l: Location, name: HookName, a: Context, b: Context)
    requires name in l.hooks && l.hooks[name].useGlobal
    ensures GetOrInitState(l, name, a) == GetOrInitState(l, name, b)
  {
  }

  /** Asking twice in a row returns the task built by the first call and
      changes nothing the second time. */
  lemma GetOrInitStateSettles(l: Location, name: HookName, ctx: Context)
    requires name in l.hooks
    requires GetOrInitState(l, name, ctx).Found?
    ensures var r := GetOrInitState(l, name, ctx);
      GetOrInitState(r.loc, name, ctx) == r
  {
    var h := l.hooks[name];
    var i := InitTask(h, ctx);
    assert i.hook.useGlobal == h.useGlobal;
    assert Resolve(i.hook, ctx) == Resolve(h, ctx);
    var r := GetOrInitState(l, name, ctx);
    assert r.loc.hooks[name] == i.hook;
    assert r.loc.hooks == l.hooks[name := i.hook];
  }

  // ---------------------------------------------------------------------
  // clean
  // ---------------------------------------------------------------------

  /** `clean` on one hook: the raw context is tested for membership first
      and only then remapped to GlobalKey for a global-state hook. */
  function CleanHook(h: Hook, ctx: Context): Hook {
    if ctx in h.states then h.(states := h.states - {Resolve(h, ctx)}) else h
  }

  /** `Location.clean(name, context)`. */
  function Clean(l: Location, name: HookName, ctx: Context): (r: Location)
    ensures name !in l.hooks ==> r == l
    ensures r.order == l.order && r.hooks.Keys == l.hooks.Keys
    ensures forall n :: n in l.hooks && n != name ==> r.hooks[n] == l.hooks[n]
    ensures name in l.hooks && !l.hooks[name].useGlobal ==>
      r.hooks[name] == l.hooks[name].(states := l.hooks[name].states - {ctx})
  {
    if name in l.hooks then l.(hooks := l.hooks[name := CleanHook(l.hooks[name], ctx)]) else l
  }

  /** The source's `del hook.states[context]` never meets a missing key:
      under GlobalScoped a raw context found in a global hook's states is
      GlobalKey itself. */
  lemma CleanKeyPresent(h: Hook, ctx: Context)
    requires GlobalScoped(h) && ctx in h.states
    ensures Resolve(h, ctx) in h.states
  {
  }

  /** Because membership is tested on the raw context, cleaning a global
      hook for any ordinary user changes nothing; only the literal context
      "__global__" removes its task. */
  lemma CleanGlobalOnlyBySentinel(l: Location, name: HookName, ctx: Context)
    requires Wf(l) && name in l.hooks && l.hooks[name].useGlobal
    ensures ctx != GlobalKey ==> Clean(l, name, ctx) == l
    ensures ctx == GlobalKey ==> GlobalKey !in Clean(l, name, ctx).hooks[name].states
  {
    assert GlobalScoped(l.hooks[name]);
    if ctx != GlobalKey {
      assert ctx !in l.hooks[name].states;
      assert l.hooks[name := l.hooks[name]] == l.hooks;
    }
  }

  lemma CleanKeepsWf(l: Location, name: HookName, ctx: Context)
    requires Wf(l)
    ensures Wf(Clean(l, name, ctx))
  {
  }

  // ---------------------------------------------------------------------
  // evaluate
  // ---------------------------------------------------------------------

  /** One pass of `evaluate`'s loop body for one found hook: the task the
      hook resolves to is sent the event, its verdict kept, and it is
      advanced once more; StopIteration from either resume cleans the hook
      for the raw context. A StopIteration from priming escapes. */
  datatype Step = Stepped(hook: Hook, verdict: bool) | StepRaised(hook: Hook)

  function StepHook(h: Hook, ctx: Context): (r: Step)
    ensures r.hook == h.(states := r.hook.states)
    ensures r.StepRaised? <==> InitTask(h, ctx).PrimeRaised?
    ensures r.Stepped? ==>
      (r.verdict <==> Resume(InitTask(h, ctx).task).Yielded? && Resume(InitTask(h, ctx).task).value)
    ensures forall c :: c != Resolve(h, ctx) ==>
      (c in r.hook.states <==> c in h.states) && (c in h.states ==> r.hook.states[c] == h.states[c])
  {
    match InitTask(h, ctx)
    case PrimeRaised(h1) => StepRaised(h1)
    case Got(h1, t) =>
      var key := Resolve(h, ctx);
      match Resume(t)
      case Stopped(t1) => Stepped(CleanHook(Put(h1, key, t1), ctx), false)
      case Yielded(v, t1) =>
        match Resume(t1)
        case Stopped(t2) => Stepped(CleanHook(Put(h1, key, t2), ctx), v)
        case Yielded(_, t2) => Stepped(Put(h1, key, t2), v)
  }

  /** The task this dispatch drives finishes during `send` or during the
      follow-up `next`. */
  ghost predicate FinishesOnStep(h: Hook, ctx: Context)
    requires InitTask(h, ctx).Got?
  {
    var t := InitTask(h, ctx).task;
    Resume(t).Stopped? || Resume(Resume(t).task).Stopped?
  }

  /** A task that survives the dispatch stays stored, advanced by the two
      resumes; one that finishes is purged for a per-user hook, while a
      global hook cleaned with an ordinary context keeps the finished task. */
  lemma {:induction false} StepStoresOrPurges(h: Hook, ctx: Context)
    requires InitTask(h, ctx).Got?
    ensures var key := Resolve(h, ctx);
      var t := InitTask(h, ctx).task;
      var s := StepHook(h, ctx).hook.states;
      && (!FinishesOnStep(h, ctx) ==> key in s && s[key] == t.(pos := t.pos + 2) && Live(s[key]))
      && (FinishesOnStep(h, ctx) && !h.useGlobal ==> ctx !in s)
      && (FinishesOnStep(h, ctx) && h.useGlobal && ctx == GlobalKey ==> GlobalKey !in s)
      && (FinishesOnStep(h, ctx) && h.useGlobal && ctx != GlobalKey && GlobalScoped(h) ==>
            GlobalKey in s && s[GlobalKey].finished)
  {
    var key := Resolve(h, ctx);
    var i := InitTask(h, ctx);
    var t := i.task;
    assert key in i.hook.states;
    match Resume(t)
    case Stopped(t1) =>
      assert ctx in Put(i.hook, key, t1).states <==> (ctx == key || ctx in i.hook.states);
    case Yielded(v, t1) =>
      match Resume(t1)
      case Stopped(t2) =>
      case Yielded(_, t2) =>
        assert t2 == t.(pos := t.pos + 2);
  }

  /** A dispatch is two resumes of the task the lookup returns: the verdict
      is the first value they yield, and a task that survives is stored as
      they leave it. */
  lemma StepHookDrivesTwice(h: Hook, ctx: Context)
    requires InitTask(h, ctx).Got?
    ensures var d := Drive(InitTask(h, ctx).task, 2);
      && StepHook(h, ctx).Stepped?
      && (StepHook(h, ctx).verdict <==> |d.0| > 0 && d.0[0])
      && (!FinishesOnStep(h, ctx) ==> StepHook(h, ctx).hook.states[Resolve(h, ctx)] == d.1)
  {
    StepStoresOrPurges(h, ctx);
  }

  /** Once a task has finished, the next lookup for that hook and context
      builds a brand-new task instead of resuming the finished one. */
  lemma FinishedTaskIsReplaced(h: Hook, ctx: Context)
    requires GlobalScoped(h)
    requires InitTask(h, ctx).Got? && FinishesOnStep(h, ctx)
    requires |h.script| > 0
    ensures var h' := StepHook(h, ctx).hook;
      InitTask(h', ctx).Got? && InitTask(h', ctx).task == Fresh(h.script).(pos := 1)
  {
    StepStoresOrPurges(h, ctx);
    var h' := StepHook(h, ctx).hook;
    assert h'.useGlobal == h.useGlobal && h'.script == h.script;
    assert Resolve(h', ctx) == Resolve(h, ctx);
  }

  lemma StepHookScoped(h: Hook, ctx: Context)
    requires GlobalScoped(h)
    ensures GlobalScoped(StepHook(h, ctx).hook)
  {
    var r := StepHook(h, ctx);
    if h.useGlobal {
      assert Resolve(h, ctx) == GlobalKey;
      assert forall c :: c in r.hook.states && c != GlobalKey ==> c in h.states;
    }
  }

  /** A hook whose generator yields at least once never lets StopIteration
      escape a dispatch. */
  lemma NonEmptyScriptNeverRaises(h: Hook, ctx: Context)
    requires |h.script| > 0
    ensures StepHook(h, ctx).Stepped?
  {
  }

  /** Per-user hooks keep contexts apart: a dispatch for one user leaves
      every other user's task exactly as it was. */
  lemma PerUserContextsIsolated(h: Hook, a: Context, b: Context)
    requires !h.useGlobal && a != b
    ensures b in StepHook(h, a).hook.states <==> b in h.states
    ensures b in h.states ==> StepHook(h, a).hook.states[b] == h.states[b]
  {
    assert b != Resolve(h, a);
  }

  /** A global hook drives the same task whichever ordinary user the event
      comes from. */
  lemma GlobalHookSameStep(h: Hook, a: Context, b: Context)
    requires GlobalScoped(h) && h.useGlobal && a != GlobalKey && b != GlobalKey
    ensures StepHook(h, a) == StepHook(h, b)
  {
    var i := InitTask(h, a);
    assert i == InitTask(h, b);
    if i.Got? {
      assert Resolve(h, a) == Resolve(h, b);
    }
  }

  /** True when hook `h` would report "consume" for this event. */
  ghost predicate Consumes(h: Hook, ctx: Context) {
    StepHook(h, ctx).Stepped? && StepHook(h, ctx).verdict
  }

  /** What `evaluate` returns: whether any hook asked to consume the event,
      or the StopIteration that escaped from priming. */
  datatype Outcome = Evaluated(loc: Location, consumed: bool) | Raised(loc: Location)

  /** One iteration of `evaluate`'s loop for hook `name`: a name that no
      longer resolves to a hook yields no task and is skipped. */
  function DriveHook(l: Location, name: HookName, ctx: Context): Outcome {
    if name !in l.hooks then Evaluated(l, false)
    else match StepHook(l.hooks[name], ctx)
      case StepRaised(h) => Raised(l.(hooks := l.hooks[name := h]))
      case Stepped(h, v) => Evaluated(l.(hooks := l.hooks[name := h]), v)
  }

  /** One loop iteration raises iff the hook's priming raised; otherwise
      only that hook changes and the verdict is whether it consumed. */
  lemma DriveHookSpec(l: Location, name: HookName, ctx: Context)
    ensures var d := DriveHook(l, name, ctx);
      && (d.Evaluated? <==> name !in l.hooks || StepHook(l.hooks[name], ctx).Stepped?)
      && d.loc.order == l.order
      && d.loc.hooks.Keys == l.hooks.Keys
      && (forall n :: n in l.hooks && n != name ==> d.loc.hooks[n] == l.hooks[n])
      && (name in l.hooks ==> d.loc.hooks[name] == StepHook(l.hooks[name], ctx).hook)
      && (d.Evaluated? ==> (d.consumed <==> name in l.hooks && Consumes(l.hooks[name], ctx)))
  {
  }

  /** `evaluate`'s loop over a list of hook names, OR-ing the verdicts. */
  function Dispatch(l: Location, names: seq<HookName>, ctx: Context): Outcome
    decreases |names|
  {
    if |names| == 0 then Evaluated(l, false)
    else match DriveHook(l, names[0], ctx)
      case Raised(l1) => Raised(l1)
      case Evaluated(l1, v) =>
        match Dispatch(l1, names[1..], ctx)
        case Raised(l2) => Raised(l2)
        case Evaluated(l2, c) => Evaluated(l2, v || c)
  }

  /** `Location.evaluate(bot, *args)` for the event's user context: the
      hook names are snapshotted on entry. */
  function Evaluate(l: Location, ctx: Context): (r: Outcome)
    ensures |l.order| == 0 ==> r == Evaluated(l, false)
  {
    Dispatch(l, l.order, ctx)
  }

  /** One unfolding of `Dispatch` after a first hook that did not raise. */
  lemma DispatchCons(l: Location, names: seq<HookName>, ctx: Context)
    requires |names| > 0 && DriveHook(l, names[0], ctx).Evaluated?
    ensures var d := DriveHook(l, names[0], ctx);
      var r2 := Dispatch(d.loc, names[1..], ctx);
      Dispatch(l, names, ctx) == if r2.Raised? then r2 else Evaluated(r2.loc, d.consumed || r2.consumed)
  {
  }

  /** Dispatching a duplicate-free list of names leaves the order and the
      hook names alone, and every listed hook as one step from its entry
      state left it. */
  lemma {:induction false} DispatchFrame(l: Location, names: seq<HookName>, ctx: Context)
    requires NoDup(names)
    ensures var r := Dispatch(l, names, ctx);
      r.Evaluated? ==>
        && r.loc.order == l.order
        && r.loc.hooks.Keys == l.hooks.Keys
        && (forall n :: n in l.hooks ==>
              r.loc.hooks[n] == if n in names then StepHook(l.hooks[n], ctx).hook else l.hooks[n])
    decreases |names|
  {
    if |names| > 0 {
      var n0, rest := names[0], names[1..];
      NoDupSplit(names);
      assert forall n :: n in names <==> n == n0 || n in rest;
      DriveHookSpec(l, n0, ctx);
      var d := DriveHook(l, n0, ctx);
      if d.Evaluated? {
        DispatchCons(l, names, ctx);
        DispatchFrame(d.loc, rest, ctx);
      }
    }
  }

  /** The loop over a duplicate-free list raises iff some listed hook's
      priming raised. */
  lemma {:induction false} DispatchRaises(l: Location, names: seq<HookName>, ctx: Context)
    requires NoDup(names)
    ensures Dispatch(l, names, ctx).Evaluated? <==>
      forall n :: n in names && n in l.hooks ==> StepHook(l.hooks[n], ctx).Stepped?
    decreases |names|
  {
    if |names| > 0 {
      var n0, rest := names[0], names[1..];
      NoDupSplit(names);
      assert forall n :: n in names <==> n == n0 || n in rest;
      DriveHookSpec(l, n0, ctx);
      var d := DriveHook(l, n0, ctx);
      if d.Evaluated? {
        DispatchCons(l, names, ctx);
        DispatchRaises(d.loc, rest, ctx);
        assert forall n :: n in rest && n in l.hooks ==> d.loc.hooks[n] == l.hooks[n];
      }
    }
  }

  /** When the loop over a duplicate-free list does not raise, it reports
      "consume" iff some listed hook's `send` produced a truthy verdict. */
  lemma {:induction false} DispatchConsumed(l: Location, names: seq<HookName>, ctx: Context)
    requires NoDup(names)
    ensures var r := Dispatch(l, names, ctx);
      r.Evaluated? ==> (r.consumed <==> exists n :: n in names && n in l.hooks && Consumes(l.hooks[n], ctx))
    decreases |names|
  {
    if |names| > 0 {
      var n0, rest := names[0], names[1..];
      NoDupSplit(names);
      assert forall n :: n in names <==> n == n0 || n in rest;
      DriveHookSpec(l, n0, ctx);
      var d := DriveHook(l, n0, ctx);
      if d.Evaluated? {
        DispatchCons(l, names, ctx);
        DispatchConsumed(d.loc, rest, ctx);
        assert forall n :: n in rest && n in l.hooks ==> d.loc.hooks[n] == l.hooks[n];
      }
    }
  }

  /** Dispatching a duplicate-free list of names drives each registered
      one exactly once, from the state it had on entry; it raises iff some
      hook's priming raised; otherwise the result is "consume" iff some
      driven hook's `send` produced a truthy verdict. */
  lemma DispatchSpec(l: Location, names: seq<HookName>, ctx: Context)
    requires NoDup(names)
    ensures var r := Dispatch(l, names, ctx);
      && (r.Evaluated? <==> forall n :: n in names && n in l.hooks ==> StepHook(l.hooks[n], ctx).Stepped?)
      && (r.Evaluated? ==>
            && (r.consumed <==> exists n :: n in names && n in l.hooks && Consumes(l.hooks[n], ctx))
            && r.loc.order == l.order
            && r.loc.hooks.Keys == l.hooks.Keys
            && (forall n :: n in l.hooks ==>
                  r.loc.hooks[n] == if n in names then StepHook(l.hooks[n], ctx).hook else l.hooks[n]))
  {
    DispatchFrame(l, names, ctx);
    DispatchRaises(l, names, ctx);
    DispatchConsumed(l, names, ctx);
  }

  /** `evaluate` drives every registered hook once; unless some freshly
      built task was already empty when primed, it returns true iff at
      least one hook's `send` produced a truthy verdict, and it keeps the
      registry well-formed. */
  lemma EvaluateSpec(l: Location, ctx: Context)
    requires Wf(l)
    ensures var r := Evaluate(l, ctx);
      && (r.Evaluated? <==> forall n :: n in l.hooks ==> StepHook(l.hooks[n], ctx).Stepped?)
      && (r.Evaluated? ==>
            && (r.consumed <==> exists n :: n in l.hooks && Consumes(l.hooks[n], ctx))
            && r.loc.hooks.Keys == l.hooks.Keys
            && (forall n :: n in l.hooks ==> r.loc.hooks[n] == StepHook(l.hooks[n], ctx).hook)
            && Wf(r.loc))
  {
    DispatchSpec(l, l.order, ctx);
    var r := Evaluate(l, ctx);
    if r.Evaluated? {
      forall n | n in l.hooks ensures GlobalScoped(r.loc.hooks[n]) {
        StepHookScoped(l.hooks[n], ctx);
      }
    }
  }

  // ---------------------------------------------------------------------
  // remove and get_hooks_for
  // ---------------------------------------------------------------------

  /** The hook classes directly derived from hook `name`
      (`__subclasses__()`). */
  function Dependents(l: Location, name: HookName): set<HookName> {
    set n | n in l.hooks && l.hooks[n].base == Some(name)
  }

  /** `remove`: an assertion failure while dependents exist, a KeyError if
      the name is not registered, and otherwise the hook and its states
      leave the location. */
  datatype Removal = Removed(loc: Location) | HasDependents | NotRegistered

  function RemoveHook(l: Location, name: HookName): (r: Removal)
    ensures r.HasDependents? <==> Dependents(l, name) != {}
    ensures r.NotRegistered? <==> Dependents(l, name) == {} && name !in l.hooks
    ensures r.Removed? ==> name in l.hooks && r.loc.hooks == l.hooks - {name}
    ensures r.Removed? && Wf(l) ==> Wf(r.loc) && r.loc.order == RemoveFirst(l.order, name)
  {
    if Dependents(l, name) != {} then HasDependents
    else if name !in l.hooks then NotRegistered
    else
      var r := Location(RemoveFirst(l.order, name), l.hooks - {name});
      assert Wf(l) ==> Wf(r) by {
        if Wf(l) {
          NoDupRemoveFirst(l.order, name);
        }
      }
      Removed(r)
  }

  /** The names among `order` of hooks declared in file `path`, in order. */
  function HooksFrom(order: seq<HookName>, hooks: map<HookName, Hook>, path: string): (r: seq<HookName>)
    ensures forall n :: n in r <==> n in order && n in hooks && hooks[n].file == path
    ensures forall n :: multiset(r)[n] <= multiset(order)[n]
  {
    if |order| == 0 then []
    else
      assert order == [order[0]] + order[1..];
      var rest := HooksFrom(order[1..], hooks, path);
      if order[0] in hooks && hooks[order[0]].file == path then [order[0]] + rest else rest
  }

  /** `get_hooks_for(path)`: every hook of the location contributed by one
      plugin file, each once. */
  function GetHooksFor(l: Location, path: string): (r: seq<HookName>)
    ensures forall n :: n in r <==> n in l.hooks && n in l.order && l.hooks[n].file == path
    ensures NoDup(l.order) ==> NoDup(r)
  {
    var r := HooksFrom(l.order, l.hooks, path);
    assert NoDup(l.order) ==> NoDup(r) by {
      if NoDup(l.order) {
        forall n ensures multiset(r)[n] <= 1 {
          assert multiset(l.order)[n] <= 1;
        }
      }
    }
    r
  }
}

=== FILE: pools.dfy ===
/** The ThreadPool family of `framework/timers.py`.

    A pool keeps a table from thread id to `(description, task, priority)`
    (a Python dict, so `order` records its key order), the "active view"
    `active` listing the tasks in the order the pool's `sort` hook gives the
    table's values, a map from generator function to the id it was last
    appended under, and the next sequential id. Task objects are generator
    objects; they are identified by a handle the pool allocates on every
    append (`created` counts them). The four classes are one datatype with a
    `kind` tag: the subclasses differ only in `append` (Named), `__getitem__`
    (Priority) and `sort` (Ordered). */
module Pools {
  import opened Options
  import opened Seqs

  datatype Kind = Plain | Named | Priority | Ordered

  /** A table key: a sequential integer id, or a generator function's name. */
  datatype Key = Id(n: nat) | Name(s: string)

  /** Identity of a generator object made by a pool. */
  type Handle = nat

  /** A generator function object: its identity, `__name__` and `__doc__`. */
  datatype Func = Func(id: nat, name: string, doc: Option<string>)

  /** One table row: `(docstring, generator object, priority)`. */
  datatype Entry = Entry(doc: Option<string>, task: Handle, priority: int)

  datatype Pool = Pool(kind: Kind, order: seq<Key>, table: map<Key, Entry>, active: seq<Handle>,
                       objid: map<Func, nat>, threads: nat, created: nat)

  /** `ThreadPool.__init__`. */
  function Empty(kind: Kind): Pool {
    Pool(kind, [], map[], [], map[], 0, 0)
  }

  /** `thread_table.values()`: the rows in key order. */
  function EntriesOf(order: seq<Key>, table: map<Key, Entry>): (r: seq<Entry>)
    ensures (forall k :: k in order ==> k in table) ==>
      |r| == |order| && forall i :: 0 <= i < |order| ==> r[i] == table[order[i]]
  {
    if |order| == 0 then []
    else
      assert order == [order[0]] + order[1..];
      (if order[0] in table then [table[order[0]]] else []) + EntriesOf(order[1..], table)
  }

  /** `[t[1] for t in rows]`: the generator objects of some rows. */
  function TasksOf(es: seq<Entry>): (r: seq<Handle>)
    ensures |r| == |es| && forall i :: 0 <= i < |es| ==> r[i] == es[i].task
  {
    if |es| == 0 then [] else [es[0].task] + TasksOf(es[1..])
  }

  ghost predicate SortedByPriority(es: seq<Entry>) {
    forall i, j :: 0 <= i < j < |es| ==> es[i].priority <= es[j].priority
  }

  /** Places `e` before the first row whose priority is not lower. */
  function Insert(e: Entry, s: seq<Entry>): seq<Entry> {
    if |s| == 0 || e.priority <= s[0].priority then [e] + s
    else [s[0]] + Insert(e, s[1..])
  }

  /** Inserting adds exactly `e` and keeps a sorted sequence sorted. */
  lemma {:induction false} InsertSpec(e: Entry, s: seq<Entry>)
    ensures multiset(Insert(e, s)) == multiset(s) + multiset{e}
    ensures SortedByPriority(s) ==> SortedByPriority(Insert(e, s))
    decreases |s|
  {
    if |s| > 0 && e.priority > s[0].priority {
      var s0, t := s[0], s[1..];
      assert s == [s0] + t;
      InsertSpec(e, t);
      var rest := Insert(e, t);
      assert Insert(e, s) == [s0] + rest;
      assert multiset([s0] + rest) == multiset{s0} + multiset(rest);
      SortedTail(s);
      SortedCons(s0, rest, e, t);
    }
  }

  lemma SortedTail(s: seq<Entry>)
    requires |s| > 0
    ensures SortedByPriority(s) ==> SortedByPriority(s[1..])
  {
    if SortedByPriority(s) {
      forall i, j | 0 <= i < j < |s[1..]| ensures s[1..][i].priority <= s[1..][j].priority {
        assert s[1..][i] == s[i + 1] && s[1..][j] == s[j + 1];
      }
    }
  }

  /** Prepending a row no higher than any row of a sorted sequence made of
      `e` and the rest of `s` keeps it sorted. */
  lemma SortedCons(a: Entry, rest: seq<Entry>, e: Entry, t: seq<Entry>)
    requires multiset(rest) == multiset(t) + multiset{e}
    requires a.priority < e.priority
    ensures SortedByPriority([a] + t) && SortedByPriority(rest) ==> SortedByPriority([a] + rest)
  {
    if SortedByPriority([a] + t) && SortedByPriority(rest) {
      var r := [a] + rest;
      forall x | x in rest ensures a.priority <= x.priority {
        assert x in multiset(rest);
        if x != e {
          assert x in multiset(t);
          var j :| 0 <= j < |t| && t[j] == x;
          assert ([a] + t)[0] == a && ([a] + t)[j + 1] == x;
        }
      }
      forall i, j | 0 <= i < j < |r| ensures r[i].priority <= r[j].priority {
        if i == 0 {
          assert r[j] == rest[j - 1];
          assert rest[j - 1] in rest;
        } else {
          assert r[i] == rest[i - 1] && r[j] == rest[j - 1];
        }
      }
    }
  }

  /** The rows of priority `q`, in their order. */
  function WithPriority(es: seq<Entry>, q: int): seq<Entry> {
    if |es| == 0 then [] else (if es[0].priority == q then [es[0]] else []) + WithPriority(es[1..], q)
  }

  lemma WithPriorityCons(a: Entry, t: seq<Entry>, q: int)
    ensures WithPriority([a] + t, q) == (if a.priority == q then [a] else []) + WithPriority(t, q)
  {
    assert ([a] + t)[0] == a && ([a] + t)[1..] == t;
  }

  /** Inserting `e` puts it ahead of every row of its own priority and
      keeps the relative order of each priority's rows. */
  lemma {:induction false} InsertStable(e: Entry, s: seq<Entry>, q: int)
    ensures WithPriority(Insert(e, s), q) == (if e.priority == q then [e] else []) + WithPriority(s, q)
    decreases |s|
  {
    if |s| == 0 || e.priority <= s[0].priority {
      WithPriorityCons(e, s, q);
    } else {
      var s0, t := s[0], s[1..];
      assert s == [s0] + t;
      InsertStable(e, t, q);
      WithPriorityCons(s0, Insert(e, t), q);
      WithPriorityCons(s0, t, q);
    }
  }

  lemma InsertStableAll(e: Entry, s: seq<Entry>)
    ensures forall q :: WithPriority(Insert(e, s), q) == (if e.priority == q then [e] else []) + WithPriority(s, q)
  {
    forall q ensures WithPriority(Insert(e, s), q) == (if e.priority == q then [e] else []) + WithPriority(s, q) {
      InsertStable(e, s, q);
    }
  }

  /** `OrderedThreadPool.sort`: a stable sort by ascending priority. Rows
      of equal priority keep their relative order. */
  function SortByPriority(es: seq<Entry>): (r: seq<Entry>)
    ensures multiset(r) == multiset(es)
    ensures SortedByPriority(r)
    ensures forall q :: WithPriority(r, q) == WithPriority(es, q)
  {
    if |es| == 0 then []
    else
      assert es == [es[0]] + es[1..];
      InsertSpec(es[0], SortByPriority(es[1..]));
      InsertStableAll(es[0], SortByPriority(es[1..]));
      Insert(es[0], SortByPriority(es[1..]))
  }

  lemma TasksCons(a: Entry, t: seq<Entry>)
    ensures TasksOf([a] + t) == [a.task] + TasksOf(t)
  {
    assert ([a] + t)[1..] == t;
  }

  lemma {:induction false} InsertTasks(e: Entry, s: seq<Entry>)
    ensures multiset(TasksOf(Insert(e, s))) == multiset(TasksOf(s)) + multiset{e.task}
    decreases |s|
  {
    if |s| == 0 || e.priority <= s[0].priority {
      TasksCons(e, s);
    } else {
      assert s == [s[0]] + s[1..];
      InsertTasks(e, s[1..]);
      TasksCons(s[0], s[1..]);
      TasksCons(s[0], Insert(e, s[1..]));
    }
  }

  /** Sorting moves rows but keeps the same generator objects. */
  lemma {:induction false} SortTasks(es: seq<Entry>)
    ensures multiset(TasksOf(SortByPriority(es))) == multiset(TasksOf(es))
    decreases |es|
  {
    if |es| > 0 {
      var x, t := es[0], es[1..];
      var st := SortByPriority(t);
      var tt := TasksOf(t);
      assert SortByPriority(es) == Insert(x, st) by {
        assert es == [x] + t;
      }
      assert multiset(TasksOf(st)) == multiset(tt) by {
        SortTasks(t);
      }
      assert multiset(TasksOf(Insert(x, st))) == multiset(TasksOf(st)) + multiset{x.task} by {
        InsertTasks(x, st);
      }
      assert multiset(TasksOf(es)) == multiset{x.task} + multiset(tt) by {
        assert es == [x] + t;
        TasksCons(x, t);
        assert multiset([x.task] + tt) == multiset{x.task} + multiset(tt);
      }
    }
  }

  /** The pool's `sort` hook: the identity, except in OrderedThreadPool. */
  function Arrange(kind: Kind, es: seq<Entry>): seq<Entry> {
    if kind == Ordered then SortByPriority(es) else es
  }

  /** The active view a pool rebuilds from its table on every append. */
  function View(p: Pool): seq<Handle> {
    TasksOf(Arrange(p.kind, EntriesOf(p.order, p.table)))
  }

  /** `docstring or threadfunc.__doc__`. */
  function OrDoc(given: Option<string>, fallback: Option<string>): Option<string> {
    if given.Some? && given.value != "" then given else fallback
  }

  /** The key order lists the table's keys, each once. */
  ghost predicate KeysWf(order: seq<Key>, table: map<Key, Entry>) {
    NoDup(order) && forall k :: k in order <==> k in table
  }

  /** Ids are below the next id (names in NamedThreadPool), and a
      NamedThreadPool never records functions. */
  ghost predicate ShapeWf(p: Pool) {
    && (forall k :: k in p.table ==> (p.kind == Named <==> k.Name?))
    && (forall k :: k in p.table && k.Id? ==> k.n < p.threads)
    && (p.kind == Named ==> p.objid == map[])
  }

  /** Every generator object was made by this pool, and no two rows share
      one. */
  ghost predicate HandlesWf(table: map<Key, Entry>, created: nat) {
    && (forall k :: k in table ==> table[k].task < created)
    && (forall k1, k2 :: k1 in table && k2 in table && table[k1].task == table[k2].task ==> k1 == k2)
  }

  /** The representation invariant every pool operation preserves. */
  ghost predicate Wf(p: Pool) {
    && KeysWf(p.order, p.table)
    && ShapeWf(p)
    && HandlesWf(p.table, p.created)
    && p.active == View(p)
  }

  lemma EmptyWf(kind: Kind)
    ensures Wf(Empty(kind))
  {
  }

  // ---------------------------------------------------------------------
  // append
  // ---------------------------------------------------------------------

  /** Stores row `e` under key `k` (a dict assignment: a new key goes last,
      an existing key keeps its place) and rebuilds the active view. */
  function Store(p: Pool, k: Key, e: Entry): Pool {
    var order := if k in p.table then p.order else p.order + [k];
    var table := p.table[k := e];
    p.(order := order, table := table, active := TasksOf(Arrange(p.kind, EntriesOf(order, table))))
  }

  /** What `append` returns: the id just assigned (None from NamedThreadPool). */
  datatype Appended = Appended(pool: Pool, id: Option<nat>)

  /** `append(threadfunc, docstring, priority)`: the base pool keys the new
      generator object by the next sequential id and records the function's
      id; NamedThreadPool keys it by the function's name and records
      nothing. */
  function Append(p: Pool, f: Func, doc: Option<string>, priority: int): (r: Appended)
    ensures r.pool.kind == p.kind
    ensures r.pool.created == p.created + 1
    ensures p.kind == Named ==> r.id == None && r.pool.objid == p.objid && r.pool.threads == p.threads
    ensures p.kind != Named ==> r.id == Some(p.threads) && r.pool.threads == p.threads + 1
    ensures p.kind != Named ==> r.pool.objid == p.objid[f := p.threads]
  {
    var e := Entry(OrDoc(doc, f.doc), p.created, priority);
    if p.kind == Named then
      Appended(Store(p, Name(f.name), e).(created := p.created + 1), None)
    else
      var q := Store(p, Id(p.threads), e);
      Appended(q.(objid := p.objid[f := p.threads], threads := p.threads + 1, created := p.created + 1), Some(p.threads))
  }

  lemma StoreKeysWf(order: seq<Key>, table: map<Key, Entry>, k: Key, e: Entry)
    requires KeysWf(order, table)
    ensures KeysWf(if k in table then order else order + [k], table[k := e])
  {
    if k !in table {
      assert multiset(order + [k]) == multiset(order) + multiset{k};
      assert k !in order;
    }
  }

  lemma StoreHandlesWf(table: map<Key, Entry>, created: nat, k: Key, e: Entry)
    requires HandlesWf(table, created) && e.task == created
    ensures HandlesWf(table[k := e], created + 1)
  {
    var t := table[k := e];
    forall k1, k2 | k1 in t && k2 in t && t[k1].task == t[k2].task
      ensures k1 == k2
    {
      if k1 != k && k2 != k {
        assert table[k1].task == table[k2].task;
      }
    }
  }

  lemma AppendWf(p: Pool, f: Func, doc: Option<string>, priority: int)
    requires Wf(p)
    ensures Wf(Append(p, f, doc, priority).pool)
  {
    var r := Append(p, f, doc, priority).pool;
    var k := if p.kind == Named then Name(f.name) else Id(p.threads);
    var e := Entry(OrDoc(doc, f.doc), p.created, priority);
    assert r.table == p.table[k := e];
    assert r.order == if k in p.table then p.order else p.order + [k];
    StoreKeysWf(p.order, p.table, k, e);
    StoreHandlesWf(p.table, p.created, k, e);
    assert ShapeWf(r);
  }

  /** The base pools store a new row under the fresh id they return;
      `query` and `[]` then find it, and every older row is untouched. */
  lemma AppendFinds(p: Pool, f: Func, doc: Option<string>, priority: int)
    requires Wf(p) && p.kind != Named
    ensures var a := Append(p, f, doc, priority);
      && a.id == Some(p.threads)
      && Id(p.threads) !in p.table
      && Query(a.pool, Id(p.threads)) == OrDoc(doc, f.doc)
      && GetItem(a.pool, Id(p.threads)) == Some(p.created)
      && (forall k :: k in p.table ==> k in a.pool.table && a.pool.table[k] == p.table[k])
  {
    var k := Id(p.threads);
    var e := Entry(OrDoc(doc, f.doc), p.created, priority);
    var r := Append(p, f, doc, priority).pool;
    assert r.table == p.table[k := e];
    assert k !in p.table;
  }

  /** The active view after appending a fresh id: the old rows and then
      the new one, arranged by the pool's `sort`. */
  lemma AppendView(p: Pool, f: Func, doc: Option<string>, priority: int)
    requires Wf(p) && p.kind != Named
    ensures Append(p, f, doc, priority).pool.active ==
      TasksOf(Arrange(p.kind, EntriesOf(p.order, p.table) + [Entry(OrDoc(doc, f.doc), p.created, priority)]))
  {
    var k := Id(p.threads);
    var e := Entry(OrDoc(doc, f.doc), p.created, priority);
    var q := Store(p, k, e);
    assert k !in p.table;
    EntriesAppend(p.order, p.table, k, e);
    assert q.table == p.table[k := e];
    assert q.order == p.order + [k];
  }

  /** The new generator object joins the active view: last in the base and
      priority pools, somewhere in the ordered pool. */
  lemma AppendActive(p: Pool, f: Func, doc: Option<string>, priority: int)
    requires Wf(p) && p.kind != Named
    ensures var a := Append(p, f, doc, priority);
      && p.created !in p.active
      && (p.kind != Ordered ==> a.pool.active == p.active + [p.created])
      && (p.kind == Ordered ==> multiset(a.pool.active) == multiset(p.active) + multiset{p.created})
  {
    var e := Entry(OrDoc(doc, f.doc), p.created, priority);
    var es := EntriesOf(p.order, p.table);
    AppendView(p, f, doc, priority);
    FreshNotActive(p);
    TasksSnoc(es, e);
    if p.kind == Ordered {
      SortTasks(es);
      SortTasks(es + [e]);
    }
  }

  lemma TasksSnoc(es: seq<Entry>, e: Entry)
    ensures TasksOf(es + [e]) == TasksOf(es) + [e.task]
  {
  }

  /** A new key's row goes after all the others in `values()`. */
  lemma EntriesAppend(order: seq<Key>, table: map<Key, Entry>, k: Key, e: Entry)
    requires KeysWf(order, table) && k !in table
    ensures EntriesOf(order + [k], table[k := e]) == EntriesOf(order, table) + [e]
  {
    var es := EntriesOf(order, table);
    var es' := EntriesOf(order + [k], table[k := e]);
    assert |es'| == |es| + 1;
    forall i | 0 <= i < |es'| ensures es'[i] == (es + [e])[i] {
      if i < |es| {
        assert (order + [k])[i] == order[i];
        assert order[i] in table && order[i] != k;
      }
    }
  }

  /** The generator object the next append makes is not yet active. */
  lemma FreshNotActive(p: Pool)
    requires Wf(p)
    ensures p.created !in p.active
  {
    ActiveMembers(p);
    assert Iterate(p) == p.active;
    assert forall k :: k in p.table ==> p.table[k].task != p.created;
  }

  /** NamedThreadPool: appending a function whose name is already a key
      replaces that row in place; the replaced generator object leaves the
      active view and the new one joins it. */
  lemma NamedAppendReplaces(p: Pool, f: Func, doc: Option<string>, priority: int)
    requires Wf(p) && p.kind == Named && Name(f.name) in p.table
    ensures var r := Append(p, f, doc, priority).pool;
      && r.order == p.order
      && r.table.Keys == p.table.Keys
      && p.table[Name(f.name)].task !in r.active
      && p.created in r.active
      && GetItem(r, Name(f.name)) == Some(p.created)
  {
    var k := Name(f.name);
    var e := Entry(OrDoc(doc, f.doc), p.created, priority);
    var r := Append(p, f, doc, priority).pool;
    assert r.table == p.table[k := e];
    assert r.order == p.order;
    AppendWf(p, f, doc, priority);
    var old_ := p.table[k].task;
    forall k2 | k2 in r.table ensures r.table[k2].task != old_ {
      if k2 != k {
        assert r.table[k2] == p.table[k2];
      }
    }
    ActiveMembers(r);
    assert Iterate(r) == r.active;
  }

  /** NamedThreadPool: `append` files the new row under the function's
      name and leaves every other row alone. A new name goes last in the
      key order and its generator object last in the active view; an
      existing name keeps its place, and the new generator object takes
      the old one's place in the active view. */
  lemma NamedAppendFrame(p: Pool, f: Func, doc: Option<string>, priority: int)
    requires Wf(p) && p.kind == Named
    ensures var r := Append(p, f, doc, priority).pool;
      var k := Name(f.name);
      && r.table.Keys == p.table.Keys + {k}
      && r.table[k] == Entry(OrDoc(doc, f.doc), p.created, priority)
      && (forall k2 :: k2 in p.table && k2 != k ==> r.table[k2] == p.table[k2])
      && (k !in p.table ==> r.order == p.order + [k] && r.active == p.active + [p.created])
      && (k in p.table ==>
            && r.order == p.order
            && |r.active| == |p.active|
            && forall i :: 0 <= i < |p.active| ==>
                 r.active[i] == if p.active[i] == p.table[k].task then p.created else p.active[i])
  {
    var k := Name(f.name);
    var e := Entry(OrDoc(doc, f.doc), p.created, priority);
    var r := Append(p, f, doc, priority).pool;
    assert r.table == p.table[k := e];
    if k !in p.table {
      assert r.order == p.order + [k];
      EntriesAppend(p.order, p.table, k, e);
      TasksSnoc(EntriesOf(p.order, p.table), e);
    } else {
      assert r.order == p.order;
      NamedReplaceInPlace(p, k, e);
    }
  }

  /** Storing a new row under a present key of a NamedThreadPool swaps its
      generator object in place in the active view. */
  lemma NamedReplaceInPlace(p: Pool, k: Key, e: Entry)
    requires Wf(p) && p.kind == Named && k in p.table
    ensures var active := TasksOf(EntriesOf(p.order, p.table[k := e]));
      && |active| == |p.active|
      && forall i :: 0 <= i < |p.active| ==>
           active[i] == if p.active[i] == p.table[k].task then e.task else p.active[i]
  {
    var t := p.table[k := e];
    var active := TasksOf(EntriesOf(p.order, t));
    assert p.active == TasksOf(EntriesOf(p.order, p.table));
    assert forall k2 :: k2 in p.order ==> k2 in t;
    forall i | 0 <= i < |p.active|
      ensures active[i] == if p.active[i] == p.table[k].task then e.task else p.active[i]
    {
      var ki := p.order[i];
      assert p.active[i] == p.table[ki].task && active[i] == t[ki].task;
      if ki != k {
        assert p.table[ki].task != p.table[k].task;
      }
    }
  }

  // ---------------------------------------------------------------------
  // remove, remove_by_obj, query, __getitem__, __iter__
  // ---------------------------------------------------------------------

  /** `remove(threadID)`: an unknown id is a silent no-op; otherwise the
      row and its generator object leave table and active view (that the
      others keep their order is `RemoveKeepsOrder`). */
  function Remove(p: Pool, k: Key): (r: Pool)
    ensures k !in p.table ==> r == p
    ensures k in p.table ==> r.table == p.table - {k}
    ensures r.kind == p.kind && r.objid == p.objid && r.threads == p.threads && r.created == p.created
  {
    if k !in p.table then p
    else
      var h := p.table[k].task;
      p.(order := RemoveFirst(p.order, k), table := p.table - {k}, active := RemoveFirst(p.active, h))
  }

  /** An object handed to `remove_by_obj`: a generator function, or a
      generator object. */
  datatype Obj = FuncObj(f: Func) | TaskObj(h: Handle)

  /** `remove_by_obj(obj)`: resolves `obj` through the function-to-id map;
      anything not in it reaches `remove(None)`, whose KeyError is
      swallowed. */
  function RemoveByObj(p: Pool, o: Obj): (r: Pool)
    ensures o.TaskObj? ==> r == p
    ensures o.FuncObj? && o.f !in p.objid ==> r == p
    ensures o.FuncObj? && o.f in p.objid ==> r == Remove(p, Id(p.objid[o.f]))
  {
    match o
    case FuncObj(f) => if f in p.objid then Remove(p, Id(p.objid[f])) else p
    case TaskObj(_) => p
  }

  /** `query(threadID)`: the row's description, or None for an unknown id. */
  function Query(p: Pool, k: Key): (r: Option<string>)
    ensures k !in p.table ==> r == None
    ensures k in p.table ==> r == p.table[k].doc
  {
    if k in p.table then p.table[k].doc else None
  }

  /** `__getitem__` as written: `thread_table.get(id, [None])[1]` indexes a
      one-element list for an unknown id and raises IndexError. */
  datatype Item = Item(task: Handle) | IndexError

  function GetItemAsWritten(p: Pool, k: Key): (r: Item)
    ensures r.IndexError? <==> k !in p.table
    ensures r.Item? ==> r.task == p.table[k].task
  {
    if k in p.table then Item(p.table[k].task) else IndexError
  }

  /** The empty base pool already shows the IndexError. */
  lemma GetItemMissingRaises()
    ensures GetItemAsWritten(Empty(Plain), Id(0)) == IndexError
  {
  }

  /** `__getitem__` as evidently intended (the `[None]` default): the row's
      generator object, or None for an unknown id. */
  function GetItem(p: Pool, k: Key): (r: Option<Handle>)
    ensures r.None? <==> k !in p.table
    ensures r.Some? ==> r.value == p.table[k].task
  {
    if k in p.table then Some(p.table[k].task) else None
  }

  /** The corrected lookup agrees with the written one wherever the latter
      does not raise. */
  lemma GetItemAgrees(p: Pool, k: Key)
    ensures GetItemAsWritten(p, k).Item? <==> GetItem(p, k).Some?
    ensures GetItem(p, k).Some? ==> GetItemAsWritten(p, k) == Item(GetItem(p, k).value)
  {
  }

  /** `PriorityThreadPool.__getitem__`: the row's generator object repeated
      `max(1, priority)` times, or None for an unknown id. */
  function PriorityGet(p: Pool, k: Key): (r: Option<seq<Handle>>)
    ensures r.None? <==> k !in p.table
    ensures r.Some? ==>
      && |r.value| == (if p.table[k].priority < 1 then 1 else p.table[k].priority)
      && forall i :: 0 <= i < |r.value| ==> r.value[i] == p.table[k].task
  {
    if k !in p.table then None
    else
      var e := p.table[k];
      var n := if e.priority < 1 then 1 else e.priority;
      Some(seq(n, _ => e.task))
  }

  /** The priority lookup misses exactly where the corrected plain lookup
      does, and otherwise repeats that lookup's generator object at least
      once. */
  lemma PriorityGetAgrees(p: Pool, k: Key)
    ensures PriorityGet(p, k).Some? <==> GetItem(p, k).Some?
    ensures PriorityGet(p, k).Some? ==>
      |PriorityGet(p, k).value| >= 1 && GetItem(p, k).value in PriorityGet(p, k).value
  {
    if k in p.table {
      assert PriorityGet(p, k).value[0] == p.table[k].task;
    }
  }

  /** `__iter__`: the active view. */
  function Iterate(p: Pool): seq<Handle> {
    p.active
  }

  lemma TasksOfMember(es: seq<Entry>, h: Handle)
    ensures h in TasksOf(es) <==> exists x :: x in es && x.task == h
  {
    if h in TasksOf(es) {
      var i :| 0 <= i < |es| && TasksOf(es)[i] == h;
      assert es[i] in es;
    }
  }

  /** Iteration lists exactly the generator objects of the table's rows. */
  lemma ActiveMembers(p: Pool)
    requires Wf(p)
    ensures forall h :: h in Iterate(p) <==> exists k :: k in p.table && p.table[k].task == h
  {
    var es := EntriesOf(p.order, p.table);
    ActiveTasks(p);
    EntriesMembers(p.order, p.table);
    forall h ensures h in p.active <==> exists k :: k in p.table && p.table[k].task == h {
      assert h in p.active <==> h in multiset(TasksOf(es));
      TasksOfMember(es, h);
    }
  }

  /** The active view holds the rows' generator objects, whatever `sort`
      did to their order. */
  lemma ActiveTasks(p: Pool)
    requires Wf(p)
    ensures multiset(p.active) == multiset(TasksOf(EntriesOf(p.order, p.table)))
  {
    if p.kind == Ordered { SortTasks(EntriesOf(p.order, p.table)); }
  }

  /** `values()` lists exactly the table's rows. */
  lemma EntriesMembers(order: seq<Key>, table: map<Key, Entry>)
    requires KeysWf(order, table)
    ensures forall x :: x in EntriesOf(order, table) <==> exists k :: k in table && table[k] == x
  {
    var es := EntriesOf(order, table);
    forall x | exists k :: k in table && table[k] == x ensures x in es {
      var k :| k in table && table[k] == x;
      var i :| 0 <= i < |order| && order[i] == k;
      assert es[i] == x;
    }
  }

  /** No generator object appears twice in the active view. */
  lemma ActiveNoDup(p: Pool)
    requires Wf(p)
    ensures NoDup(Iterate(p))
  {
    var es := EntriesOf(p.order, p.table);
    var ts := TasksOf(es);
    assert multiset(p.active) == multiset(ts) by {
      if p.kind == Ordered { SortTasks(es); }
    }
    forall i, j | 0 <= i < j < |ts| ensures ts[i] != ts[j] {
      NoDupDistinct(p.order, i, j);
      assert ts[i] == p.table[p.order[i]].task && ts[j] == p.table[p.order[j]].task;
    }
    DistinctNoDup(ts);
    forall x ensures multiset(p.active)[x] <= 1 {
      assert multiset(ts)[x] <= 1;
    }
  }

  /** Iteration lists exactly the generator objects of the table's rows,
      each once. */
  lemma ActiveIsTable(p: Pool)
    requires Wf(p)
    ensures forall h :: h in Iterate(p) <==> exists k :: k in p.table && p.table[k].task == h
    ensures NoDup(Iterate(p))
  {
    ActiveMembers(p);
    ActiveNoDup(p);
  }

  /** Index-wise distinctness implies duplicate-freedom. */
  lemma {:induction false} DistinctNoDup(s: seq<Handle>)
    requires forall i, j :: 0 <= i < j < |s| ==> s[i] != s[j]
    ensures NoDup(s)
    decreases |s|
  {
    if |s| > 0 {
      DistinctNoDup(s[1..]);
      assert s == [s[0]] + s[1..];
      assert s[0] !in s[1..];
      forall x ensures multiset(s)[x] <= 1 {
        assert multiset(s)[x] == multiset{s[0]}[x] + multiset(s[1..])[x];
      }
    }
  }

  // ---------------------------------------------------------------------
  // remove keeps the active view equal to the rebuilt one
  // ---------------------------------------------------------------------

  lemma {:induction false} EntriesAgree(order: seq<Key>, t1: map<Key, Entry>, t2: map<Key, Entry>)
    requires forall k :: k in order ==> (k in t1 <==> k in t2) && (k in t1 ==> t1[k] == t2[k])
    ensures EntriesOf(order, t1) == EntriesOf(order, t2)
    decreases |order|
  {
    if |order| > 0 {
      EntriesAgree(order[1..], t1, t2);
    }
  }

  lemma EntriesCons(o0: Key, rest: seq<Key>, table: map<Key, Entry>)
    ensures EntriesOf([o0] + rest, table) == (if o0 in table then [table[o0]] else []) + EntriesOf(rest, table)
  {
    assert ([o0] + rest)[0] == o0 && ([o0] + rest)[1..] == rest;
  }

  lemma {:induction false} EntriesRemove(order: seq<Key>, table: map<Key, Entry>, k: Key)
    requires NoDup(order) && k in table
    requires forall k2 :: k2 in table && k2 != k ==> table[k2] != table[k]
    ensures EntriesOf(RemoveFirst(order, k), table - {k}) == RemoveFirst(EntriesOf(order, table), table[k])
    decreases |order|
  {
    if |order| > 0 {
      var o0 := order[0];
      var rest := order[1..];
      assert order == [o0] + rest;
      NoDupSplit(order);
      EntriesCons(o0, rest, table);
      RemoveFirstCons(o0, rest, k);
      if o0 == k {
        EntriesAgree(rest, table - {k}, table);
        RemoveFirstCons(table[k], EntriesOf(rest, table), table[k]);
      } else {
        EntriesRemove(rest, table, k);
        var rr := RemoveFirst(rest, k);
        var t' := table - {k};
        var er := EntriesOf(rest, table);
        assert RemoveFirst(order, k) == [o0] + rr;
        EntriesCons(o0, rr, t');
        assert EntriesOf(rr, t') == RemoveFirst(er, table[k]);
        if o0 in table {
          assert o0 in t' && t'[o0] == table[o0];
          assert table[o0] != table[k];
          RemoveFirstCons(table[o0], er, table[k]);
          assert EntriesOf(order, table) == [table[o0]] + er;
        } else {
          assert o0 !in t';
          assert EntriesOf(order, table) == er;
          assert EntriesOf([o0] + rr, t') == EntriesOf(rr, t');
        }
      }
    }
  }

  /** Removing a row whose priority ties the first one it would be sorted
      before still leaves the inserted row first. */
  lemma {:induction false} InsertThenRemove(e: Entry, s: seq<Entry>)
    ensures RemoveFirst(Insert(e, s), e) == s
    decreases |s|
  {
    if |s| == 0 || e.priority <= s[0].priority {
      assert Insert(e, s) == [e] + s;
      RemoveFirstCons(e, s, e);
    } else {
      var s0 := s[0];
      var t := s[1..];
      assert s == [s0] + t;
      InsertThenRemove(e, t);
      var rest := Insert(e, t);
      assert Insert(e, s) == [s0] + rest;
      RemoveFirstCons(s0, rest, e);
    }
  }

  lemma {:induction false} InsertRemove(x: Entry, s: seq<Entry>, e: Entry)
    requires x != e && SortedByPriority(s)
    ensures Insert(x, RemoveFirst(s, e)) == RemoveFirst(Insert(x, s), e)
    decreases |s|
  {
    if |s| == 0 {
      assert RemoveFirst(s, e) == s;
      assert Insert(x, s) == [x];
      assert RemoveFirst([x], e) == [x];
    } else if x.priority <= s[0].priority {
      InsertRemoveFront(x, s, e);
    } else {
      SortedTail(s);
      InsertRemove(x, s[1..], e);
      InsertRemoveBehind(x, s, e);
    }
  }

  /** `x` goes in front of `s`, and still in front once `e` is gone. */
  lemma InsertRemoveFront(x: Entry, s: seq<Entry>, e: Entry)
    requires x != e && SortedByPriority(s) && |s| > 0 && x.priority <= s[0].priority
    ensures Insert(x, RemoveFirst(s, e)) == RemoveFirst(Insert(x, s), e)
  {
    var s0, t := s[0], s[1..];
    assert RemoveFirst(Insert(x, s), e) == [x] + RemoveFirst(s, e) by {
      assert Insert(x, s) == [x] + s;
      RemoveFirstCons(x, s, e);
    }
    if s0 == e {
      assert RemoveFirst(s, e) == t by {
        assert s == [s0] + t;
        RemoveFirstCons(s0, t, e);
      }
      assert Insert(x, t) == [x] + t by {
        if |t| > 0 {
          assert s[0].priority <= s[1].priority && t[0] == s[1];
        }
      }
    } else {
      var rt := RemoveFirst(t, e);
      assert RemoveFirst(s, e) == [s0] + rt by {
        assert s == [s0] + t;
        RemoveFirstCons(s0, t, e);
      }
      assert Insert(x, [s0] + rt) == [x] + ([s0] + rt) by {
        assert ([s0] + rt)[0] == s0;
      }
    }
  }

  /** `x` goes behind the head of `s`: the recursive case. */
  lemma InsertRemoveBehind(x: Entry, s: seq<Entry>, e: Entry)
    requires x != e && |s| > 0 && x.priority > s[0].priority
    requires Insert(x, RemoveFirst(s[1..], e)) == RemoveFirst(Insert(x, s[1..]), e)
    ensures Insert(x, RemoveFirst(s, e)) == RemoveFirst(Insert(x, s), e)
  {
    var s0, t := s[0], s[1..];
    var it := Insert(x, t);
    var lhs := RemoveFirst(Insert(x, s), e);
    assert lhs == RemoveFirst([s0] + it, e) by {
      assert Insert(x, s) == [s0] + it;
    }
    RemoveFirstCons(s0, it, e);
    assert s == [s0] + t;
    RemoveFirstCons(s0, t, e);
    if s0 == e {
      assert lhs == it;
      assert RemoveFirst(s, e) == t;
    } else {
      var rt := RemoveFirst(t, e);
      assert lhs == [s0] + RemoveFirst(it, e);
      assert RemoveFirst(s, e) == [s0] + rt;
      assert Insert(x, [s0] + rt) == [s0] + Insert(x, rt) by {
        assert ([s0] + rt)[0] == s0 && ([s0] + rt)[1..] == rt;
      }
    }
  }

  /** Sorting commutes with removing one row. */
  lemma {:induction false} SortRemove(es: seq<Entry>, e: Entry)
    ensures SortByPriority(RemoveFirst(es, e)) == RemoveFirst(SortByPriority(es), e)
    decreases |es|
  {
    if |es| > 0 {
      var x := es[0];
      var t := es[1..];
      assert es == [x] + t;
      if x == e {
        InsertThenRemove(e, SortByPriority(t));
      } else {
        SortRemove(t, e);
        var rt := RemoveFirst(t, e);
        assert RemoveFirst(es, e) == [x] + rt;
        assert ([x] + rt)[0] == x && ([x] + rt)[1..] == rt;
        InsertRemove(x, SortByPriority(t), e);
      }
    }
  }

  lemma {:induction false} TasksRemove(s: seq<Entry>, e: Entry)
    requires forall x :: x in s && x.task == e.task ==> x == e
    ensures TasksOf(RemoveFirst(s, e)) == RemoveFirst(TasksOf(s), e.task)
    decreases |s|
  {
    if |s| > 0 {
      assert s == [s[0]] + s[1..];
      assert TasksOf(s) == [s[0].task] + TasksOf(s[1..]);
      if s[0] != e {
        TasksRemove(s[1..], e);
        var r := RemoveFirst(s[1..], e);
        assert TasksOf([s[0]] + r) == [s[0].task] + TasksOf(r);
      }
    }
  }

  /** Only key `k`'s row carries `k`'s generator object. */
  lemma EntriesUnique(order: seq<Key>, table: map<Key, Entry>, created: nat, k: Key)
    requires KeysWf(order, table) && HandlesWf(table, created) && k in table
    ensures forall x :: x in EntriesOf(order, table) && x.task == table[k].task ==> x == table[k]
    ensures forall k2 :: k2 in table && k2 != k ==> table[k2] != table[k]
  {
    var es := EntriesOf(order, table);
    forall x | x in es && x.task == table[k].task ensures x == table[k] {
      var i :| 0 <= i < |es| && es[i] == x;
      assert x == table[order[i]];
    }
  }

  lemma ArrangeRemove(kind: Kind, es: seq<Entry>, e: Entry)
    ensures Arrange(kind, RemoveFirst(es, e)) == RemoveFirst(Arrange(kind, es), e)
    ensures multiset(Arrange(kind, es)) == multiset(es)
  {
    if kind == Ordered {
      SortRemove(es, e);
    }
  }

  /** Dropping a row from the table keeps the active view equal to the one
      rebuilt from the remaining rows. */
  lemma RemoveView(p: Pool, k: Key)
    requires Wf(p) && k in p.table
    ensures Remove(p, k).active == View(Remove(p, k))
  {
    var r := Remove(p, k);
    var e := p.table[k];
    var es := EntriesOf(p.order, p.table);
    var arr := Arrange(p.kind, es);
    assert p.active == TasksOf(arr);
    assert r.order == RemoveFirst(p.order, k) && r.table == p.table - {k};
    assert r.active == RemoveFirst(p.active, e.task);
    EntriesUnique(p.order, p.table, p.created, k);
    EntriesRemove(p.order, p.table, k);
    ArrangeRemove(p.kind, es, e);
    assert View(r) == TasksOf(RemoveFirst(arr, e));
    forall x | x in arr && x.task == e.task ensures x == e {
      assert x in multiset(arr);
    }
    TasksRemove(arr, e);
  }

  lemma RemoveWf(p: Pool, k: Key)
    requires Wf(p)
    ensures Wf(Remove(p, k))
  {
    if k in p.table {
      NoDupRemoveFirst(p.order, k);
      RemoveView(p, k);
    }
  }

  /** `remove` of a present id takes that key out of the key order and
      exactly that row's generator object out of the active view, keeping
      the other keys, rows and generator objects in their order. */
  lemma RemoveSpec(p: Pool, k: Key)
    requires Wf(p) && k in p.table
    ensures var r := Remove(p, k);
      var h := p.table[k].task;
      && k in p.order
      && r.order == p.order[..IndexOf(p.order, k)] + p.order[IndexOf(p.order, k) + 1..]
      && h in Iterate(p)
      && Iterate(r) == Iterate(p)[..IndexOf(Iterate(p), h)] + Iterate(p)[IndexOf(Iterate(p), h) + 1..]
      && h !in Iterate(r)
      && (forall h2 :: h2 != h ==> (h2 in Iterate(r) <==> h2 in Iterate(p)))
      && Query(r, k) == None
      && (forall k2 :: k2 in p.table && k2 != k ==> k2 in r.table && r.table[k2] == p.table[k2])
  {
    assert k in p.order;
    assert p.table[k].task in p.active && NoDup(p.active) by {
      ActiveIsTable(p);
    }
    RemoveKeepsOrder(p, k);
  }

  /** `del thread_table[id]` keeps the dict's other keys in order, and
      `active_threads.remove` takes out the row's generator object and keeps
      the others in order; all this needs of the pool is that the key is
      listed and its generator object is active once. */
  lemma RemoveKeepsOrder(p: Pool, k: Key)
    requires k in p.table && k in p.order && p.table[k].task in p.active && NoDup(p.active)
    ensures var r := Remove(p, k);
      var h := p.table[k].task;
      && r.order == p.order[..IndexOf(p.order, k)] + p.order[IndexOf(p.order, k) + 1..]
      && r.active == p.active[..IndexOf(p.active, h)] + p.active[IndexOf(p.active, h) + 1..]
      && h !in r.active
      && (forall h2 :: h2 != h ==> (h2 in r.active <==> h2 in p.active))
  {
    NoDupRemoveFirst(p.active, p.table[k].task);
    RemoveFirstAt(p.order, k);
    RemoveFirstAt(p.active, p.table[k].task);
  }

  lemma StoreThenDrop(m: map<Key, Entry>, k: Key, e: Entry)
    requires k !in m
    ensures m[k := e] - {k} == m
  {
  }

  /** Removing the id `append` just returned restores the table, its key
      order and the active view. */
  lemma AppendThenRemove(p: Pool, f: Func, doc: Option<string>, priority: int)
    requires Wf(p) && p.kind != Named
    ensures var r := Remove(Append(p, f, doc, priority).pool, Id(p.threads));
      r.order == p.order && r.table == p.table && r.active == p.active
  {
    var k := Id(p.threads);
    var e := Entry(OrDoc(doc, f.doc), p.created, priority);
    var a := Append(p, f, doc, priority).pool;
    assert a.table == p.table[k := e] && a.order == p.order + [k] && a.kind == p.kind;
    AppendWf(p, f, doc, priority);
    RemoveView(a, k);
    var r := Remove(a, k);
    assert k !in p.table && k !in p.order;
    RemoveFirstAppended(p.order, k);
    StoreThenDrop(p.table, k, e);
    assert r.table == p.table;
    assert r.order == p.order;
    assert r.active == View(r) == View(p);
  }

  /** On the base pools, `remove_by_obj` of the function just appended finds
      it through the function-to-id map and undoes the append. */
  lemma AppendThenRemoveByObj(p: Pool, f: Func, doc: Option<string>, priority: int)
    requires Wf(p) && p.kind != Named
    ensures var r := RemoveByObj(Append(p, f, doc, priority).pool, FuncObj(f));
      r.order == p.order && r.table == p.table && r.active == p.active
  {
    var a := Append(p, f, doc, priority).pool;
    assert a.objid[f] == p.threads;
    assert RemoveByObj(a, FuncObj(f)) == Remove(a, Id(p.threads));
    AppendThenRemove(p, f, doc, priority);
  }

  /** `remove_by_obj` never matches a generator object, and on a
      NamedThreadPool, which never fills the function-to-id map, it matches
      nothing at all. */
  lemma RemoveByObjMisses(p: Pool, o: Obj)
    requires Wf(p)
    ensures o.TaskObj? || p.kind == Named ==> RemoveByObj(p, o) == p
  {
  }

  // ---------------------------------------------------------------------
  // removal by generator object, as the timer loop evidently intends
  // ---------------------------------------------------------------------

  /** The key whose row holds generator object `h`, if any. */
  function KeyOf(order: seq<Key>, table: map<Key, Entry>, h: Handle): (r: Option<Key>)
    ensures r.Some? ==> r.value in order && r.value in table && table[r.value].task == h
    ensures r.None? ==> forall k :: k in order && k in table ==> table[k].task != h
  {
    if |order| == 0 then None
    else if order[0] in table && table[order[0]].task == h then Some(order[0])
    else
      assert forall k :: k in order ==> k == order[0] || k in order[1..];
      KeyOf(order[1..], table, h)
  }

  /** Removes the row owning generator object `h`; a no-op if none does. */
  function RemoveTask(p: Pool, h: Handle): Pool {
    match KeyOf(p.order, p.table, h)
    case None => p
    case Some(k) => Remove(p, k)
  }

  /** Removing by generator object takes exactly that object out of
      iteration, keeps the other objects and the other keys in their order,
      and leaves the other rows as they were; without a row owning it the
      pool is unchanged. */
  lemma RemoveTaskSpec(p: Pool, h: Handle)
    requires Wf(p)
    ensures var r := RemoveTask(p, h);
      && Wf(r)
      && (h !in Iterate(p) ==> r == p)
      && (h in Iterate(p) ==> Iterate(r) == Iterate(p)[..IndexOf(Iterate(p), h)] + Iterate(p)[IndexOf(Iterate(p), h) + 1..])
      && (KeyOf(p.order, p.table, h).Some? ==>
            var k := KeyOf(p.order, p.table, h).value;
            r.order == p.order[..IndexOf(p.order, k)] + p.order[IndexOf(p.order, k) + 1..])
      && h !in Iterate(r)
      && (forall h2 :: h2 != h ==> (h2 in Iterate(r) <==> h2 in Iterate(p)))
      && (forall k :: k in r.table ==> k in p.table && r.table[k] == p.table[k])
      && r.kind == p.kind
  {
    RemoveTaskMembers(p, h);
    RemoveTaskOrder(p, h);
  }

  /** The membership half of `RemoveTaskSpec`. */
  lemma RemoveTaskMembers(p: Pool, h: Handle)
    requires Wf(p)
    ensures var r := RemoveTask(p, h);
      && Wf(r)
      && h !in Iterate(r)
      && (forall h2 :: h2 != h ==> (h2 in Iterate(r) <==> h2 in Iterate(p)))
      && (forall k :: k in r.table ==> k in p.table && r.table[k] == p.table[k])
      && r.kind == p.kind
  {
    ActiveIsTable(p);
    match KeyOf(p.order, p.table, h)
    case None =>
    case Some(k) =>
      RemoveWf(p, k);
      RemoveSpec(p, k);
  }

  /** The order half of `RemoveTaskSpec`. */
  lemma RemoveTaskOrder(p: Pool, h: Handle)
    requires Wf(p)
    ensures var r := RemoveTask(p, h);
      && (h !in Iterate(p) ==> r == p)
      && (h in Iterate(p) ==> Iterate(r) == Iterate(p)[..IndexOf(Iterate(p), h)] + Iterate(p)[IndexOf(Iterate(p), h) + 1..])
      && (KeyOf(p.order, p.table, h).Some? ==>
            var k := KeyOf(p.order, p.table, h).value;
            r.order == p.order[..IndexOf(p.order, k)] + p.order[IndexOf(p.order, k) + 1..])
  {
    match KeyOf(p.order, p.table, h)
    case None =>
      assert h !in Iterate(p) by {
        ActiveMembers(p);
      }
    case Some(k) =>
      assert h in p.active && NoDup(p.active) by {
        ActiveIsTable(p);
      }
      RemoveKeepsOrder(p, k);
  }
}

=== FILE: tasks.dfy ===
/** A hook's resumable task. In the source every hook owns a generator
    function; calling it yields a generator that the dispatcher primes with
    `next`, feeds events with `send` and advances again with `next`. The task
    body itself is not modelled: a task is the finite script of values it yields,
    reduced to their truthiness, plus how many of them have been consumed.
    Resuming past the end of the script is the generator returning, i.e.
    Python raising StopIteration, after which `gi_frame` is None. */
module Tasks {

  datatype Task = Task(script: seq<bool>, pos: nat, finished: bool)

  /** The generator object a hook's factory returns: nothing consumed yet. */
  function Fresh(script: seq<bool>): Task {
    Task(script, 0, false)
  }

  /** `gi_frame is not None`: the generator has not yet raised StopIteration. */
  predicate Live(t: Task) {
    !t.finished
  }

  /** Outcome of one `next`/`send`: a yielded value, or StopIteration. */
  datatype Resumed = Yielded(value: bool, task: Task) | Stopped(task: Task)

  /** One resume. The value sent in is not modelled: the script already
      fixes what the body yields. */
  function Resume(t: Task): Resumed {
    if !t.finished && t.pos < |t.script| then Yielded(t.script[t.pos], t.(pos := t.pos + 1))
    else Stopped(t.(finished := true))
  }

  /** Resumes `t` up to `n` times, collecting the yielded values and
      stopping at the first StopIteration. */
  function Drive(t: Task, n: nat): (seq<bool>, Task)
    decreases n
  {
    if n == 0 then ([], t)
    else match Resume(t)
      case Stopped(t') => ([], t')
      case Yielded(v, t') =>
        var (vs, t'') := Drive(t', n - 1);
        ([v] + vs, t'')
  }

  /** A live task yields the rest of its script in order. */
  lemma {:induction false} DriveFollowsScript(t: Task, n: nat)
    requires Live(t) && t.pos + n <= |t.script|
    ensures Drive(t, n) == (t.script[t.pos..t.pos + n], t.(pos := t.pos + n))
    decreases n
  {
    if n == 0 {
      assert t.script[t.pos..t.pos] == [];
      assert t.(pos := t.pos) == t;
    } else {
      var t' := t.(pos := t.pos + 1);
      assert Resume(t) == Yielded(t.script[t.pos], t');
      DriveFollowsScript(t', n - 1);
      assert Drive(t, n) == ([t.script[t.pos]] + Drive(t', n - 1).0, Drive(t', n - 1).1);
      assert t'.(pos := t'.pos + (n - 1)) == t.(pos := t.pos + n);
      assert t.script[t.pos..t.pos + n] == [t.script[t.pos]] + t'.script[t'.pos..t'.pos + (n - 1)];
    }
  }

  /** A fresh task yields exactly its script, stays live while doing so, and
      the next resume after that raises StopIteration, for good. */
  lemma FreshYieldsScriptThenStops(script: seq<bool>)
    ensures Drive(Fresh(script), |script|) == (script, Task(script, |script|, false))
    ensures Resume(Task(script, |script|, false)) == Stopped(Task(script, |script|, true))
    ensures Resume(Task(script, |script|, true)) == Stopped(Task(script, |script|, true))
  {
    DriveFollowsScript(Fresh(script), |script|);
    assert script[0..|script|] == script;
  }
}

=== FILE: timers.dfy ===
/** The timer generator and `TimerFramework` of `framework/timers.py`.

    A timer is the generator `add_timer` builds around a callback: on its
    first resume it seeds `last_run` (1 under `run_now`, otherwise the
    current clock), and on every resume it fires the callback when at least
    `delay` has passed since `last_run`. The wall clock is an integer passed
    to every resume, and a callback run is only counted. */
module Timers {
  import opened Options
  import opened Seqs
  import opened Pools

  /** Where the generator is suspended: not yet started, parked at its
      `yield` with the current `last_run`, or returned. */
  datatype Phase = Unstarted | Waiting(lastRun: int) | Finished

  /** The generator's closure variables and its phase. */
  datatype Timer = Timer(delay: int, repeat: int, runNow: bool, phase: Phase)

  /** The generator object `threadfunc()` makes: no code has run yet. */
  function NewTimer(delay: int, repeat: int, runNow: bool): Timer {
    Timer(delay, repeat, runNow, Unstarted)
  }

  /** What one `next` did: whether the callback ran, whether the generator
      returned (StopIteration), and the timer afterwards. */
  datatype Tick = Tick(fired: bool, stopped: bool, timer: Timer)

  /** One pass of the `while True` body, from `last_run` to the `yield` or
      the `break`. */
  function Check(t: Timer, lastRun: int, now: int): Tick {
    if now - lastRun >= t.delay then
      if t.repeat == 0 then Tick(true, true, t.(phase := Finished))
      else Tick(true, false, t.(repeat := if t.repeat > 0 then t.repeat - 1 else t.repeat, phase := Waiting(now)))
    else Tick(false, false, t.(phase := Waiting(lastRun)))
  }

  /** `next(timer)` at clock `now`. */
  function Step(t: Timer, now: int): (r: Tick)
    ensures r.timer.delay == t.delay && r.timer.runNow == t.runNow
    ensures r.stopped <==> r.timer.phase.Finished?
    ensures t.phase.Finished? ==> r == Tick(false, true, t)
    ensures !t.phase.Finished? && r.stopped ==> r.fired && t.repeat == 0
    ensures r.fired ==> r.timer.phase.Finished? || r.timer.phase == Waiting(now)
    ensures !r.fired ==> r.timer.repeat == t.repeat
  {
    match t.phase
    case Finished => Tick(false, true, t)
    case Unstarted => Check(t, if t.runNow then 1 else now, now)
    case Waiting(lr) => Check(t, lr, now)
  }

  /** Resumes `t` once per clock reading: the clocks at which the callback
      ran, and the timer afterwards. A returned generator just raises
      StopIteration again. */
  function Trace(t: Timer, clocks: seq<int>): (seq<int>, Timer)
    decreases |clocks|
  {
    if |clocks| == 0 then ([], t)
    else
      var k := Step(t, clocks[0]);
      var rest := Trace(k.timer, clocks[1..]);
      ((if k.fired then [clocks[0]] else []) + rest.0, rest.1)
  }

  // ---------------------------------------------------------------------
  // firing count
  // ---------------------------------------------------------------------

  /** The firing budget of a timer made with `repeat = n` after `k`
      firings: a negative `repeat` is never touched, otherwise the remaining
      `repeat` plus the firings so far is `n`, and the generator has
      returned exactly when `n + 1` firings happened. */
  ghost predicate Budget(t: Timer, n: int, k: nat) {
    if n < 0 then t.repeat == n && !t.phase.Finished?
    else if t.phase.Finished? then k == n + 1
    else 0 <= t.repeat && t.repeat + k == n
  }

  lemma StepBudget(t: Timer, n: int, k: nat, now: int)
    requires Budget(t, n, k)
    ensures var r := Step(t, now); Budget(r.timer, n, k + if r.fired then 1 else 0)
  {
  }

  lemma {:induction false} TraceBudget(t: Timer, n: int, k: nat, clocks: seq<int>)
    requires Budget(t, n, k)
    ensures Budget(Trace(t, clocks).1, n, k + |Trace(t, clocks).0|)
    decreases |clocks|
  {
    if |clocks| > 0 {
      var r := Step(t, clocks[0]);
      var k' := k + if r.fired then 1 else 0;
      StepBudget(t, n, k, clocks[0]);
      TraceBudget(r.timer, n, k', clocks[1..]);
    }
  }

  /** `repeat = n >= 0` allows at most n + 1 firings, and the generator
      returns exactly when the (n + 1)-th has happened; a negative `repeat`
      never lets it return. */
  lemma RepeatBound(delay: int, n: int, runNow: bool, clocks: seq<int>)
    ensures var (fs, t) := Trace(NewTimer(delay, n, runNow), clocks);
      && (n >= 0 ==> |fs| <= n + 1 && (t.phase.Finished? <==> |fs| == n + 1))
      && (n < 0 ==> !t.phase.Finished? && t.repeat == n)
  {
    TraceBudget(NewTimer(delay, n, runNow), n, 0, clocks);
  }

  /** The budget is reachable: with `delay = 5` and `repeat = 2`, resumes at
      clocks 0, 5, 10 and 15 seed `last_run` at 0, then fire three times,
      the last resume ending the generator. */
  lemma RepeatTwoFiresThrice()
    ensures Trace(NewTimer(5, 2, false), [0, 5, 10, 15]) == ([5, 10, 15], Timer(5, 0, false, Finished))
  {
    var t0 := NewTimer(5, 2, false);
    var t1, t2, t3, t4 := Timer(5, 2, false, Waiting(0)), Timer(5, 1, false, Waiting(5)),
                          Timer(5, 0, false, Waiting(10)), Timer(5, 0, false, Finished);
    assert Step(t0, 0) == Tick(false, false, t1);
    assert Step(t1, 5) == Tick(true, false, t2);
    assert Step(t2, 10) == Tick(true, false, t3);
    assert Step(t3, 15) == Tick(true, true, t4);
    var c4, c3, c2, c1 := [15], [10, 15], [5, 10, 15], [0, 5, 10, 15];
    assert c4[1..] == [] && c3[1..] == c4 && c2[1..] == c3 && c1[1..] == c2;
    assert c4[0] == 15 && c3[0] == 10 && c2[0] == 5 && c1[0] == 0;
    assert Trace(t4, []) == ([], t4);
    assert Trace(t3, c4).0 == c4 && Trace(t3, c4).1 == t4;
    assert Trace(t2, c3).0 == c3 && Trace(t2, c3).1 == t4;
    assert Trace(t1, c2).0 == c2 && Trace(t1, c2).1 == t4;
    assert Trace(t0, c1).0 == c2 && Trace(t0, c1).1 == t4;
  }

  // ---------------------------------------------------------------------
  // last_run
  // ---------------------------------------------------------------------

  /** `last_run` is seeded by the first resume, not by `add_timer`: without
      `run_now` it is the clock of that resume, so the first resume fires
      only for a non-positive delay; with `run_now` it is 1, so the first
      resume fires iff `now - 1 >= delay`. Either way the timer is then
      parked with `last_run` equal to that clock, or has returned. */
  lemma FirstResume(delay: int, repeat: int, runNow: bool, now: int)
    ensures var r := Step(NewTimer(delay, repeat, runNow), now);
      && (r.fired <==> if runNow then now - 1 >= delay else delay <= 0)
      && (r.fired || !runNow ==> r.timer.phase == Waiting(now) || r.timer.phase.Finished?)
      && (!r.fired && runNow ==> r.timer.phase == Waiting(1))
  {
  }

  /** A parked timer fires iff `delay` has passed since `last_run`, and a
      firing moves `last_run` to the current clock. */
  lemma WaitingFires(t: Timer, lastRun: int, now: int)
    requires t.phase == Waiting(lastRun)
    ensures Step(t, now).fired <==> now - lastRun >= t.delay
    ensures !Step(t, now).fired ==> Step(t, now).timer == t
  {
  }

  /** Consecutive clock readings in `fs` lie at least `d` apart. */
  ghost predicate Spaced(fs: seq<int>, d: int) {
    forall i :: 0 < i < |fs| ==> fs[i] - fs[i - 1] >= d
  }

  lemma SpacedCons(now: int, rest: seq<int>, d: int)
    requires Spaced(rest, d) && (|rest| > 0 ==> rest[0] - now >= d)
    ensures Spaced([now] + rest, d)
  {
    var fs := [now] + rest;
    forall i | 0 < i < |fs| ensures fs[i] - fs[i - 1] >= d {
      if i > 1 {
        assert fs[i] == rest[i - 1] && fs[i - 1] == rest[i - 2];
      }
    }
  }

  /** Every firing comes at least `delay` after the previous one, and the
      first one at least `delay` after the `last_run` a parked timer
      holds. */
  lemma {:induction false} FiringsSpaced(t: Timer, clocks: seq<int>)
    ensures var fs := Trace(t, clocks).0;
      && Spaced(fs, t.delay)
      && (t.phase.Waiting? && |fs| > 0 ==> fs[0] - t.phase.lastRun >= t.delay)
      && (t.phase.Finished? ==> fs == [])
    decreases |clocks|
  {
    if |clocks| > 0 {
      var now := clocks[0];
      var r := Step(t, now);
      var rest := Trace(r.timer, clocks[1..]).0;
      FiringsSpaced(r.timer, clocks[1..]);
      var fs := Trace(t, clocks).0;
      if r.fired {
        assert fs == [now] + rest;
        SpacedCons(now, rest, t.delay);
      } else {
        assert fs == rest;
        if t.phase.Waiting? {
          assert r.timer == t;
        }
      }
    }
  }

  // ---------------------------------------------------------------------
  // TimerFramework
  // ---------------------------------------------------------------------

  /** The callback object `add_timer` wraps: its `__name__` and `__doc__`. */
  datatype Callback = Callback(name: string, doc: Option<string>)

  /** `TimerFramework`: a NamedThreadPool of timer generators, the state of
      every generator object the pool ever made, and a counter that gives
      each `timer` closure its identity. */
  datatype Framework = Framework(pool: Pool, timers: map<Handle, Timer>, closures: nat)

  /** `TimerFramework.__init__`. */
  function Init(): Framework {
    Framework(Empty(Named), map[], 0)
  }

  /** The pool is a well-formed NamedThreadPool and every generator object
      in its table has a timer state. */
  ghost predicate Consistent(fw: Framework) {
    && Pools.Wf(fw.pool)
    && fw.pool.kind == Named
    && forall k :: k in fw.pool.table ==> fw.pool.table[k].task in fw.timers
  }

  lemma InitConsistent()
    ensures Consistent(Init())
  {
    EmptyWf(Named);
  }

  /** `add_timer(delay, callback, repeat=..., run_now=...)`: a fresh `timer`
      closure named and documented after the callback, appended to the
      pool; it is returned. */
  function AddTimer(fw: Framework, delay: int, callback: Callback, repeat: int, runNow: bool): (r: (Framework, Func))
    ensures r.1.name == callback.name && r.1.doc == callback.doc
    ensures r.0.pool.kind == fw.pool.kind
  {
    var f := Func(fw.closures, callback.name, callback.doc);
    var pool := Append(fw.pool, f, None, 1).pool;
    (Framework(pool, fw.timers[fw.pool.created := NewTimer(delay, repeat, runNow)], fw.closures + 1), f)
  }

  lemma AddTimerConsistent(fw: Framework, delay: int, callback: Callback, repeat: int, runNow: bool)
    requires Consistent(fw)
    ensures Consistent(AddTimer(fw, delay, callback, repeat, runNow).0)
  {
    var f := Func(fw.closures, callback.name, callback.doc);
    var a := Append(fw.pool, f, None, 1).pool;
    var e := Entry(OrDoc(None, callback.doc), fw.pool.created, 1);
    assert a.table == fw.pool.table[Name(callback.name) := e];
    AppendWf(fw.pool, f, None, 1);
  }

  /** The new timer is filed under the callback's name with the callback's
      docstring, is active and not yet started; a timer already filed under
      that name is replaced and leaves the active view. Every other timer
      stays filed, stays active and keeps its state; a new name's timer is
      iterated last. */
  lemma AddTimerSpec(fw: Framework, delay: int, callback: Callback, repeat: int, runNow: bool)
    requires Consistent(fw)
    ensures var (r, f) := AddTimer(fw, delay, callback, repeat, runNow);
      var h := fw.pool.created;
      var k := Name(callback.name);
      && Consistent(r)
      && GetItem(r.pool, k) == Some(h)
      && Query(r.pool, k) == callback.doc
      && h in Iterate(r.pool)
      && r.timers[h] == NewTimer(delay, repeat, runNow)
      && (k in fw.pool.table ==> fw.pool.table[k].task !in Iterate(r.pool))
      && (forall k2 :: k2 in fw.pool.table && k2 != k ==> k2 in r.pool.table && r.pool.table[k2] == fw.pool.table[k2])
      && (forall h2 :: h2 in Iterate(fw.pool) && (k in fw.pool.table ==> h2 != fw.pool.table[k].task) ==>
            h2 in Iterate(r.pool) && h2 in fw.timers && h2 in r.timers && r.timers[h2] == fw.timers[h2])
      && (k !in fw.pool.table ==> Iterate(r.pool) == Iterate(fw.pool) + [h])
  {
    AddTimerConsistent(fw, delay, callback, repeat, runNow);
    var f := Func(fw.closures, callback.name, callback.doc);
    var a := Append(fw.pool, f, None, 1).pool;
    var k := Name(callback.name);
    var e := Entry(OrDoc(None, callback.doc), fw.pool.created, 1);
    assert a.table == fw.pool.table[k := e];
    assert a.table[k] == e;
    AppendWf(fw.pool, f, None, 1);
    ActiveMembers(a);
    assert fw.pool.created in Iterate(a);
    if k in fw.pool.table {
      NamedAppendReplaces(fw.pool, f, None, 1);
    }
    AddTimerKeepsOthers(fw, delay, callback, repeat, runNow);
  }

  /** The frame half of `AddTimerSpec`. */
  lemma AddTimerKeepsOthers(fw: Framework, delay: int, callback: Callback, repeat: int, runNow: bool)
    requires Consistent(fw)
    ensures var (r, f) := AddTimer(fw, delay, callback, repeat, runNow);
      var h := fw.pool.created;
      var k := Name(callback.name);
      && (forall k2 :: k2 in fw.pool.table && k2 != k ==> k2 in r.pool.table && r.pool.table[k2] == fw.pool.table[k2])
      && (forall h2 :: h2 in Iterate(fw.pool) && (k in fw.pool.table ==> h2 != fw.pool.table[k].task) ==>
            h2 in Iterate(r.pool) && h2 in fw.timers && h2 in r.timers && r.timers[h2] == fw.timers[h2])
      && (k !in fw.pool.table ==> Iterate(r.pool) == Iterate(fw.pool) + [h])
  {
    var f := Func(fw.closures, callback.name, callback.doc);
    var a := Append(fw.pool, f, None, 1).pool;
    var k := Name(callback.name);
    var h := fw.pool.created;
    NamedAppendFrame(fw.pool, f, None, 1);
    ActiveMembers(fw.pool);
    FreshNotActive(fw.pool);
    forall h2 | h2 in Iterate(fw.pool) && (k in fw.pool.table ==> h2 != fw.pool.table[k].task)
      ensures h2 in Iterate(a) && h2 in fw.timers
    {
      var k2 :| k2 in fw.pool.table && fw.pool.table[k2].task == h2;
      if k in fw.pool.table {
        var i :| 0 <= i < |fw.pool.active| && fw.pool.active[i] == h2;
        assert a.active[i] == h2;
      }
    }
  }

  /** What `remove_timer` is given: a timer's name, or anything else (such
      as the closure `add_timer` returned). */
  datatype TimerRef = ByName(name: string) | ByObj(f: Func)

  /** `remove_timer(timer_name)`. */
  function RemoveTimer(fw: Framework, ref: TimerRef): Framework {
    match ref
    case ByName(s) => fw.(pool := Remove(fw.pool, Name(s)))
    case ByObj(f) => fw.(pool := RemoveByObj(fw.pool, FuncObj(f)))
  }

  /** Removing by name takes that timer out of the active view and leaves
      every other one in place, in its order, with its state; the name is
      no longer filed. */
  lemma RemoveTimerByName(fw: Framework, name: string)
    requires Consistent(fw) && Name(name) in fw.pool.table
    ensures var r := RemoveTimer(fw, ByName(name));
      var h := fw.pool.table[Name(name)].task;
      && Consistent(r)
      && h !in Iterate(r.pool)
      && (forall h2 :: h2 != h ==> (h2 in Iterate(r.pool) <==> h2 in Iterate(fw.pool)))
      && h in Iterate(fw.pool)
      && Iterate(r.pool) == Iterate(fw.pool)[..IndexOf(Iterate(fw.pool), h)] + Iterate(fw.pool)[IndexOf(Iterate(fw.pool), h) + 1..]
      && r.timers == fw.timers
      && GetItem(r.pool, Name(name)) == None
  {
    RemoveWf(fw.pool, Name(name));
    RemoveSpec(fw.pool, Name(name));
  }

  /** Removing by the closure `add_timer` returned does nothing: the pool
      is a NamedThreadPool, whose function-to-id map stays empty. */
  lemma RemoveTimerByObjIsNoop(fw: Framework, f: Func)
    requires Consistent(fw)
    ensures RemoveTimer(fw, ByObj(f)) == fw
  {
    RemoveByObjMisses(fw.pool, FuncObj(f));
  }

  /** As written, handing `remove_timer` the closure `add_timer` just
      returned leaves that timer active. */
  lemma AddThenRemoveByObjKeeps(fw: Framework, delay: int, callback: Callback, repeat: int, runNow: bool)
    requires Consistent(fw)
    ensures var (r, f) := AddTimer(fw, delay, callback, repeat, runNow);
      fw.pool.created in Iterate(RemoveTimer(r, ByObj(f)).pool)
  {
    var (r, f) := AddTimer(fw, delay, callback, repeat, runNow);
    AddTimerSpec(fw, delay, callback, repeat, runNow);
    RemoveTimerByObjIsNoop(r, f);
  }

  /** `remove_timer` as evidently intended: a closure `add_timer` returned
      is cancelled through the name it was filed under, which is what the
      NamedThreadPool keys it by. A stale closure whose name a later
      `add_timer` re-filed therefore cancels that newer timer. */
  function CancelTimer(fw: Framework, ref: TimerRef): (r: Framework)
    ensures ref.ByName? ==> r == RemoveTimer(fw, ref)
  {
    match ref
    case ByName(s) => RemoveTimer(fw, ref)
    case ByObj(f) => fw.(pool := Remove(fw.pool, Name(f.name)))
  }

  /** Cancelling, by the closure it returned, a timer just added takes that
      timer out of the active view and keeps the framework invariant. */
  lemma AddThenCancel(fw: Framework, delay: int, callback: Callback, repeat: int, runNow: bool)
    requires Consistent(fw)
    ensures var (r, f) := AddTimer(fw, delay, callback, repeat, runNow);
      var c := CancelTimer(r, ByObj(f));
      && fw.pool.created in Iterate(r.pool)
      && fw.pool.created !in Iterate(c.pool)
      && Consistent(c)
  {
    var (r, f) := AddTimer(fw, delay, callback, repeat, runNow);
    AddTimerSpec(fw, delay, callback, repeat, runNow);
    assert Name(callback.name) in r.pool.table;
    RemoveTimerByName(r, callback.name);
  }

  // ---------------------------------------------------------------------
  // process_timers
  // ---------------------------------------------------------------------

  /** The timer state of `h` stops (raises StopIteration) at clock `now`. */
  ghost predicate StopsAt(timers: map<Handle, Timer>, h: Handle, now: int) {
    h in timers && Step(timers[h], now).stopped
  }

  ghost predicate FiresAt(timers: map<Handle, Timer>, h: Handle, now: int) {
    h in timers && Step(timers[h], now).fired
  }

  /** Resumes every listed generator object once, in order. */
  function StepAll(timers: map<Handle, Timer>, hs: seq<Handle>, now: int): (r: map<Handle, Timer>)
    ensures r.Keys == timers.Keys
    ensures NoDup(hs) ==> forall x :: x in timers ==>
      r[x] == if x in hs then Step(timers[x], now).timer else timers[x]
    decreases |hs|
  {
    if |hs| == 0 then timers
    else
      assert forall x :: x in hs <==> x == hs[0] || x in hs[1..] by {
        assert hs == [hs[0]] + hs[1..];
      }
      assert NoDup(hs) ==> NoDup(hs[1..]) && hs[0] !in hs[1..] by {
        if NoDup(hs) { NoDupSplit(hs); }
      }
      if hs[0] in timers then StepAll(timers[hs[0] := Step(timers[hs[0]], now).timer], hs[1..], now)
      else StepAll(timers, hs[1..], now)
  }

  /** `remove_by_obj(thread)` for each generator object that stopped. */
  function RemoveEachByObj(p: Pool, hs: seq<Handle>): Pool
    decreases |hs|
  {
    if |hs| == 0 then p else RemoveEachByObj(RemoveByObj(p, TaskObj(hs[0])), hs[1..])
  }

  /** The generator objects among `hs` whose resume stops. */
  function Stopping(timers: map<Handle, Timer>, hs: seq<Handle>, now: int): seq<Handle>
    decreases |hs|
  {
    if |hs| == 0 then []
    else (if hs[0] in timers && Step(timers[hs[0]], now).stopped then [hs[0]] else []) + Stopping(timers, hs[1..], now)
  }

  /** `process_timers()` as written: every active timer is resumed, and each
      one that stops is handed, as a generator object, to `remove_by_obj`. */
  function ProcessTimersAsWritten(fw: Framework, now: int): Framework {
    var hs := Iterate(fw.pool);
    fw.(timers := StepAll(fw.timers, hs, now), pool := RemoveEachByObj(fw.pool, Stopping(fw.timers, hs, now)))
  }

  lemma {:induction false} RemoveEachByObjMisses(p: Pool, hs: seq<Handle>)
    ensures RemoveEachByObj(p, hs) == p
    decreases |hs|
  {
    if |hs| > 0 {
      RemoveEachByObjMisses(p, hs[1..]);
    }
  }

  lemma {:induction false} StepAllFinished(timers: map<Handle, Timer>, hs: seq<Handle>, now: int, h: Handle)
    requires h in timers && timers[h].phase.Finished?
    ensures StepAll(timers, hs, now)[h] == timers[h]
    decreases |hs|
  {
    if |hs| > 0 {
      if hs[0] in timers {
        var t' := timers[hs[0] := Step(timers[hs[0]], now).timer];
        StepAllFinished(t', hs[1..], now, h);
      } else {
        StepAllFinished(timers, hs[1..], now, h);
      }
    }
  }

  /** As written, processing never shrinks the pool: a timer whose
      generator has returned stays active, stays finished, and raises
      StopIteration again on every later pass. */
  lemma ProcessKeepsFinishedTimers(fw: Framework, now: int, h: Handle)
    requires Consistent(fw) && h in Iterate(fw.pool) && h in fw.timers && fw.timers[h].phase.Finished?
    ensures var r := ProcessTimersAsWritten(fw, now);
      && r.pool == fw.pool
      && h in Iterate(r.pool)
      && r.timers[h] == fw.timers[h]
      && StopsAt(r.timers, h, now)
  {
    RemoveEachByObjMisses(fw.pool, Stopping(fw.timers, Iterate(fw.pool), now));
    StepAllFinished(fw.timers, Iterate(fw.pool), now, h);
  }

  /** As written, a pass resumes every active timer exactly once and leaves
      the other timer states and the pool as they were. */
  lemma ProcessAsWrittenSteps(fw: Framework, now: int)
    requires Consistent(fw)
    ensures var r := ProcessTimersAsWritten(fw, now);
      && r.pool == fw.pool
      && r.timers.Keys == fw.timers.Keys
      && forall h :: h in fw.timers ==>
           r.timers[h] == if h in Iterate(fw.pool) then Step(fw.timers[h], now).timer else fw.timers[h]
  {
    ActiveIsTable(fw.pool);
    RemoveEachByObjMisses(fw.pool, Stopping(fw.timers, Iterate(fw.pool), now));
  }

  /** The snapshot `process_timers` walks: the active view, each entry
      with a timer state. */
  ghost predicate Snapshot(fw: Framework, hs: seq<Handle>) {
    hs == Iterate(fw.pool) && NoDup(hs) && forall x :: x in hs ==> x in fw.timers
  }

  /** `seen` is exactly the first `i` snapshot entries. */
  ghost predicate SeenPrefix(hs: seq<Handle>, i: int, seen: set<Handle>) {
    && 0 <= i <= |hs|
    && (forall x :: x in seen ==> x in hs)
    && (forall j :: 0 <= j < i ==> hs[j] in seen)
    && (forall j :: i <= j < |hs| ==> hs[j] !in seen)
  }

  /** The pool once the entries in `seen` were resumed and the stopped ones
      removed. */
  ghost predicate PoolAfter(fw: Framework, now: int, hs: seq<Handle>, seen: set<Handle>, pool: Pool) {
    && Pools.Wf(pool) && pool.kind == Named
    && (forall k :: k in pool.table ==> k in fw.pool.table && pool.table[k] == fw.pool.table[k])
    && (forall x :: x in Iterate(pool) <==> x in hs && !(x in seen && StopsAt(fw.timers, x, now)))
  }

  /** The timer states once the entries in `seen` were resumed. */
  ghost predicate TimersAfter(fw: Framework, now: int, seen: set<Handle>, timers: map<Handle, Timer>) {
    && timers.Keys == fw.timers.Keys
    && (forall x :: x in fw.timers ==>
          timers[x] == if x in seen then Step(fw.timers[x], now).timer else fw.timers[x])
  }

  /** The loop state of `ProcessTimers` after resuming the first `i`
      snapshot entries, the set `seen` of them. */
  ghost predicate Processed(fw: Framework, now: int, hs: seq<Handle>, i: int, seen: set<Handle>,
                            pool: Pool, timers: map<Handle, Timer>, fired: seq<Handle>)
  {
    && Snapshot(fw, hs)
    && SeenPrefix(hs, i, seen)
    && PoolAfter(fw, now, hs, seen, pool)
    && TimersAfter(fw, now, seen, timers)
    && (forall x :: x in fired <==> x in seen && FiresAt(fw.timers, x, now))
  }

  lemma ProcessedInit(fw: Framework, now: int)
    requires Consistent(fw)
    ensures Processed(fw, now, Iterate(fw.pool), 0, {}, fw.pool, fw.timers, [])
  {
    ActiveIsTable(fw.pool);
  }

  lemma SeenStep(hs: seq<Handle>, i: int, seen: set<Handle>)
    requires SeenPrefix(hs, i, seen) && NoDup(hs) && i < |hs|
    ensures hs[i] !in seen
    ensures SeenPrefix(hs, i + 1, seen + {hs[i]})
  {
    forall j | i < j < |hs| ensures hs[j] != hs[i] {
      NoDupDistinct(hs, i, j);
    }
  }

  lemma PoolStep(fw: Framework, now: int, hs: seq<Handle>, seen: set<Handle>, pool: Pool, h: Handle)
    requires PoolAfter(fw, now, hs, seen, pool) && h in hs && h !in seen && h in fw.timers
    ensures PoolAfter(fw, now, hs, seen + {h},
                      if Step(fw.timers[h], now).stopped then RemoveTask(pool, h) else pool)
  {
    if Step(fw.timers[h], now).stopped {
      PoolStepRemoves(fw, now, hs, seen, pool, h);
    } else {
      assert StopsAt(fw.timers, h, now) == false;
    }
  }

  lemma PoolStepRemoves(fw: Framework, now: int, hs: seq<Handle>, seen: set<Handle>, pool: Pool, h: Handle)
    requires PoolAfter(fw, now, hs, seen, pool) && h in hs && h !in seen && StopsAt(fw.timers, h, now)
    ensures PoolAfter(fw, now, hs, seen + {h}, RemoveTask(pool, h))
  {
    var r := RemoveTask(pool, h);
    RemoveTaskSpec(pool, h);
    forall x ensures x in Iterate(r) <==> x in hs && !(x in seen + {h} && StopsAt(fw.timers, x, now)) {
      if x != h {
        assert x in Iterate(r) <==> x in Iterate(pool);
      }
    }
  }

  lemma TimersStep(fw: Framework, now: int, seen: set<Handle>, timers: map<Handle, Timer>, h: Handle)
    requires TimersAfter(fw, now, seen, timers) && h !in seen && h in fw.timers
    ensures timers[h] == fw.timers[h]
    ensures TimersAfter(fw, now, seen + {h}, timers[h := Step(fw.timers[h], now).timer])
  {
  }

  /** Resuming snapshot entry `i` and, if it stopped, removing it. */
  lemma ProcessedStep(fw: Framework, now: int, hs: seq<Handle>, i: int, seen: set<Handle>,
                      pool: Pool, timers: map<Handle, Timer>, fired: seq<Handle>)
    requires Processed(fw, now, hs, i, seen, pool, timers, fired) && i < |hs|
    ensures var h := hs[i];
      var tick := Step(timers[h], now);
      Processed(fw, now, hs, i + 1, seen + {h},
                if tick.stopped then RemoveTask(pool, h) else pool,
                timers[h := tick.timer],
                if tick.fired then fired + [h] else fired)
  {
    var h := hs[i];
    var tick := Step(timers[h], now);
    var seen' := seen + {h};
    var pool' := if tick.stopped then RemoveTask(pool, h) else pool;
    var timers' := timers[h := tick.timer];
    var fired' := if tick.fired then fired + [h] else fired;
    assert h !in seen && SeenPrefix(hs, i + 1, seen') by {
      SeenStep(hs, i, seen);
    }
    assert tick == Step(fw.timers[h], now) && TimersAfter(fw, now, seen', timers') by {
      TimersStep(fw, now, seen, timers, h);
    }
    assert PoolAfter(fw, now, hs, seen', pool') by {
      PoolStep(fw, now, hs, seen, pool, h);
    }
    assert forall x :: x in fired' <==> x in seen' && FiresAt(fw.timers, x, now);
  }

  /** `process_timers()` as evidently intended: every active timer (a
      snapshot of the active view) is resumed once at clock `now`, and the
      ones whose generator returned leave the pool. Returns the new state
      and the timers whose callback ran. */
  method ProcessTimers(fw: Framework, now: int) returns (r: Framework, fired: seq<Handle>)
    requires Consistent(fw)
    ensures Consistent(r)
    ensures r.closures == fw.closures
    ensures forall h :: h in Iterate(r.pool) <==> h in Iterate(fw.pool) && !StopsAt(fw.timers, h, now)
    ensures forall h :: h in fired <==> h in Iterate(fw.pool) && FiresAt(fw.timers, h, now)
    ensures r.timers.Keys == fw.timers.Keys
    ensures forall h :: h in fw.timers ==>
      r.timers[h] == if h in Iterate(fw.pool) then Step(fw.timers[h], now).timer else fw.timers[h]
  {
    var hs := Iterate(fw.pool);
    var pool := fw.pool;
    var timers := fw.timers;
    fired := [];
    ghost var seen: set<Handle> := {};
    var i := 0;
    ProcessedInit(fw, now);
    while i < |hs|
      invariant Processed(fw, now, hs, i, seen, pool, timers, fired)
      decreases |hs| - i
    {
      ProcessedStep(fw, now, hs, i, seen, pool, timers, fired);
      var h := hs[i];
      var tick := Step(timers[h], now);
      if tick.fired {
        fired := fired + [h];
      }
      timers := timers[h := tick.timer];
      if tick.stopped {
        pool := RemoveTask(pool, h);
      }
      seen := seen + {h};
      i := i + 1;
    }
    ProcessedDone(fw, now, hs, i, seen, pool, timers, fired);
    r := Framework(pool, timers, fw.closures);
  }

  lemma ProcessedDone(fw: Framework, now: int, hs: seq<Handle>, i: int, seen: set<Handle>,
                      pool: Pool, timers: map<Handle, Timer>, fired: seq<Handle>)
    requires Consistent(fw)
    requires Processed(fw, now, hs, i, seen, pool, timers, fired) && i >= |hs|
    ensures var r := Framework(pool, timers, fw.closures);
      && Consistent(r)
      && (forall h :: h in Iterate(r.pool) <==> h in Iterate(fw.pool) && !StopsAt(fw.timers, h, now))
      && (forall h :: h in fired <==> h in Iterate(fw.pool) && FiresAt(fw.timers, h, now))
      && r.timers.Keys == fw.timers.Keys
      && (forall h :: h in fw.timers ==>
            r.timers[h] == if h in Iterate(fw.pool) then Step(fw.timers[h], now).timer else fw.timers[h])
  {
    assert forall x :: x in hs ==> x in seen;
  }
}
